=== FILE: README.md ===
# FHIRPath values and types, in Dafny

This project models the value-and-type layer of go-fhirpath, a FHIRPath
implementation for FHIR R4 written in Go. It covers the following parts:

- **Escape decoder** (`internal/esc`). It decodes the text of string literals.
- **System values** (`system`):
  - Boolean, Integer, Integer64, Decimal and String, with their parsing, negation, comparison, equivalence, rendering, unmarshalling and conversions to and from FHIR R4 elements;
  - the check of System type names;
  - the strict and permissive conversions of FHIR elements into System values.
- **Collections** (`collection`). These are the ordered sequences every FHIRPath expression consumes and produces. The model covers their construction, joining, the singleton queries, and FHIRPath's singleton evaluation of Booleans.
- **Type namespaces** (`namespace`). The FHIR and System namespaces hold Go types, select among them and name them.

Everything is modelled as immutable datatypes and pure functions. Methods appear only where the Go code is a loop worth modelling as one (`Collections.Of`, `Collections.Join`, `Collections.Equal`), and in `Collections.Singleton`, which calls the method `Of`.

The modules are as follows.

| file | module | models |
|---|---|---|
| results.dfy | Results | `Option`, `Result` |
| errors.dfy | Errors | the ParseError of the System types; the state an unmarshaller leaves |
| numerals.dfy | Numerals | int32/int64 wrap-around, and `strconv.ParseInt` / `FormatInt` in base 10 |
| fhir.dfy | Fhir | the FHIR R4 elements the conversions see: boolean, integer-like, string-like, other |
| escapes.dfy | Escapes | `esc.Parse`, as a one-pass scanner and as the source's replace / re-quote / unquote pipeline |
| booleans.dfy, integers.dfy, integers64.dfy, decimals.dfy, strings.dfy | Booleans, Integers, Integers64, Decimals, Strings | the five System types |
| systemtypes.dfy | SystemTypes | `system.Any` as a closed datatype, and `IsType` |
| values.dfy | Values | the Go values a collection can hold |
| conversion.dfy | Conversion | `system.FromR4`, `system.Normalize` |
| collections.dfy | Collections | `collection.Collection` |
| namespaces.dfy | Namespaces | `namespace.Namespace`, `R4`, `System`, `Select` |

Modelling choices:

- **Integer types.**
  - Go's `int32` and `int64` are the subset types `Int32` and `Int64`.
  - Wrapping arithmetic is written out with `Wrap32` and `Wrap64`.
  - Go's `int` is taken to be 64 bits wide.
- **Decimals.**
  - A decimal is a coefficient and a base-10 exponent, as in the shopspring decimal library that `system.Decimal` wraps.
  - Its exact value, a Dafny `real`, is the reference that comparison, equivalence and the integer conversions are proved against.
- **Characters.**
  - Characters are Unicode scalar values.
  - Comparing strings by character gives the same order as Go's comparison of their UTF-8 bytes, because UTF-8 preserves code-point order.
- **Values a collection holds.**
  - FHIR resources and elements are Go pointers, so each carries a reference number standing for the pointer's identity.
  - A Go `reflect.Type` is described by the name of the type, its pointer depth, and the set of namespace interfaces it implements.

Where the Go documentation and the Go code disagree, the model follows the code:

- `Collection.Of` refuses `reflect.TypeSpecifier`, although its documentation lists it among the accepted types.
- `Decimal.Equal` compares values, so 1.0 equals 1.00.

## Model

| member | source | states |
|---|---|---|
| Escapes.Decode | internal/esc/esc.go:28-38 | decoding never lengthens the text, and text without a backslash or a raw newline decodes to itself |
| Escapes.GoEscape | internal/esc/esc.go:33 | a Go escape never consumes more characters than follow it |
| Escapes.GoEscapeCases | internal/esc/esc.go:33 | a letter outside Go's escapes is rejected; the single-letter escapes consume nothing; `\x`, `\u` and `\U` succeed exactly when 2, 4 or 8 hex digits follow and give a valid code point, which is the character, and every escape consumes only digits that follow it |
| Escapes.DecodeMatchesPipeline | internal/esc/esc.go:15-38 | on every input, the one-pass decoder gives exactly what the replacer, the quote re-escape and strconv.Unquote give together |
| Escapes.ReplaceEscapes | internal/esc/esc.go:15-25 | the replacer never shortens the text |
| Escapes.ReplaceEscapesNoBackslash | internal/esc/esc.go:15-25 | the replacer leaves text without a backslash as it is |
| Escapes.RequoteQuotes | internal/esc/esc.go:31-32 | the quote re-escape never shortens the text |
| Escapes.RequoteLeavesNoQuote | internal/esc/esc.go:31-32 | after the quote re-escape no bare double quote remains |
| Escapes.UnquoteChar | internal/esc/esc.go:33 | one step of strconv.Unquote consumes at least one character |
| Escapes.UnquoteCharSuffix | internal/esc/esc.go:33 | what one step of strconv.Unquote leaves is a suffix of its input |
| Escapes.UnquoteBodyStops | internal/esc/esc.go:33 | the loop of strconv.Unquote stops at the end or at an unescaped double quote, leaving a suffix of its input, and writes no more characters than it reads |
| Escapes.Finish | internal/esc/esc.go:33-36 | the loop's output is the result exactly when the stop is the closing quote and the last character; an error of the loop is reported as it is |
| Escapes.Unquote | internal/esc/esc.go:33-36 | only text enclosed in double quotes is accepted, and the result is shorter than the text between them or as long |
| Escapes.ParseAsWrittenBounds | internal/esc/esc.go:28-38 | the three steps as the source composes them never lengthen the text, and leave text without backslashes or newlines as it is |
| Escapes.UnquoteQuotedIsDecode | internal/esc/esc.go:30-36 | the Unquote loop over the rewritten text reaches the same result or error as the scan |
| Escapes.FhirEscapeDecodes | internal/esc/esc.go:16-25 | each of the eight FHIRPath escapes decodes to its single character |
| Escapes.FhirEscapeTable | internal/esc/esc.go:17-24 | the character each escape letter stands for: quote, double quote, backtick, CR, LF, tab, form feed, backslash |
| Escapes.UnicodeEscapeReadsBack | internal/esc/esc.go:17-24 | the `\u00XX` text the replacer writes for an escape reads back as that escape's character |
| Escapes.EscapedBackslashThenLetter | internal/esc/esc.go:24 | an escaped backslash followed by a letter decodes to backslash and letter, because replacement does not overlap |
| Escapes.TwoEscapedBackslashes | internal/esc/esc.go:24 | four backslashes decode to two |
| Escapes.BareQuoteKept | internal/esc/esc.go:31-32 | a bare double quote decodes to itself, because it is re-escaped before unquoting |
| Escapes.UnicodeEscapeDecodes | internal/esc/esc.go:33 | `\u` and any four hex digits of a valid code point decode to that character, and decoding goes on after them |
| Escapes.UnicodeEscapeExample | internal/esc/esc.go:33 | `\u044d` decodes to U+044D |
| Escapes.DanglingBackslashFails | internal/esc/esc.go:33-36 | a trailing backslash after any plain text is a syntax error |
| Escapes.UnknownEscapeFails | internal/esc/esc.go:33-36 | a backslash before any character that starts neither a FHIRPath nor a Go escape is a syntax error, whatever follows |
| Escapes.ShortUnicodeEscapeFails | internal/esc/esc.go:33-36 | `\u` not followed by four hex digits is a syntax error, whatever follows |
| Escapes.SurrogateEscapeFails | internal/esc/esc.go:33-36 | `\u` and four hex digits in the surrogate range D800-DFFF are a syntax error, whatever follows |
| Escapes.BadEscapeExamples | internal/esc/esc.go:33-36 | `\q`, `\z`, `\u12` and `\ud800` are syntax errors |
| Escapes.RawNewlineFails | internal/esc/esc.go:33-36 | a raw line feed is a syntax error wherever it stands |
| Escapes.DecodePlainStep | internal/esc/esc.go:28-38 | a character other than a backslash or a newline is copied and the scan goes on |
| Escapes.DecodeFhirStep | internal/esc/esc.go:16-25 | a FHIRPath escape yields its character and the scan goes on after it |
| Escapes.RequoteConcat | internal/esc/esc.go:32 | the quote re-escape works on each part of a concatenation separately |
| Escapes.RequoteNoQuote | internal/esc/esc.go:32 | the quote re-escape leaves text without double quotes unchanged |
| Escapes.QuotedFhirEscapeHead | internal/esc/esc.go:16-25 | the replacer rewrites a leading FHIRPath escape to its `\u00XX` form |
| Escapes.QuotedOtherEscapeHead | internal/esc/esc.go:16-32 | a backslash before any other character is left for Unquote |
| Escapes.QuotedQuoteHead | internal/esc/esc.go:32 | a leading bare double quote becomes `\u0022` |
| Escapes.QuotedPrefix | internal/esc/esc.go:29-32 | text without backslashes or quotes passes both rewrites unchanged |
| Escapes.GoEscapeTransparent | internal/esc/esc.go:30-33 | a Go escape reads the same characters from the rewritten text as from the input |
| Booleans.Parse | system/bool.go:24-32 | exactly "true" and "false" are accepted, with their values; anything else is a ParseError carrying the input |
| Booleans.Negate | system/bool.go:46-48 | the result is the other truth value |
| Booleans.NegateInvolution | system/bool.go:46-48 | negating twice is the identity |
| Booleans.Render | system/bool.go:58-60 | the text of a Boolean parses back to it |
| Booleans.RenderParseRoundTrip | system/bool.go:24-32 | parsing inverts rendering, and every accepted text is the rendering of its value |
| Booleans.ParseIsStrict | system/bool.go:24-32 | "True", "TRUE", "", " true", "1" and "t" are rejected |
| Booleans.ToR4 | system/bool.go:80-82 | the R4 element is a FHIR boolean without id or extensions |
| Booleans.FromR4 | system/bool.go:75-77 | the value of a FHIR boolean; converting it back gives the element exactly when the element has no id or extensions |
| Booleans.R4RoundTrip | system/bool.go:75-82 | FromR4 inverts R4; R4 inverts FromR4 exactly on elements without id or extensions |
| Numerals.Wrap32 | system/integer.go:44-46 | the int32 result differs from the exact one by a multiple of 2^32, and equals it when that fits |
| Numerals.Wrap64 | system/integer64.go:41-43 | the int64 result differs from the exact one by a multiple of 2^64, and equals it when that fits |
| Numerals.Wrap32OfWrap64 | system/decimal.go:64-66 | narrowing to int64 and then to int32 is the same as narrowing to int32 directly |
| Numerals.ParseInt | system/integer.go:23-30 | an accepted text is an optional sign followed by one or more digits, and the value is the digits' value, negated after a minus sign, within the range the bit size allows |
| Numerals.ParseIntNumeral | system/integer.go:23-30 | every optionally signed numeral, leading zeros allowed, is accepted exactly when its value is in range, and then parses to that value |
| Numerals.FormatInt | system/integer.go:71-73 | the text is non-empty and starts with a minus sign exactly for negative values |
| Numerals.NatDigits | system/integer.go:71-73 | the digits denote the number, with no leading zero |
| Numerals.FormatParseRoundTrip | system/integer.go:23-30 | parsing the rendering of an in-range value gives it back |
| Numerals.FormatParseOutOfRange | system/integer.go:23-30 | the rendering of an out-of-range value is a range error |
| Numerals.ParseIntRejects | system/integer.go:25-27 | "", "-", "0x1234", "bad value" and "v12345v" are rejected |
| Integers.Parse | system/integer.go:23-30 | an accepted text is an optional sign and one or more digits whose signed value is the result; a rejected text is a ParseError carrying it |
| Integers.ParseNumeral | system/integer.go:23-30 | every optionally signed numeral whose value fits in int32 is accepted with that value, whatever its sign or leading zeros |
| Integers.RenderParseRoundTrip | system/integer.go:23-30 | every int32 parses back from its text |
| Integers.ParseRejectsOutOfRange | system/integer.go:23-30 | every numeral whose value lies outside int32 is a ParseError, with or without a sign or leading zeros |
| Integers.ParseAcceptsSignsAndZeros | system/integer.go:23-30 | "+007" is 7 and "-0" is 0; "0x1234", "" and "1.0" are rejected |
| Integers.Negate | system/integer.go:44-46 | negation is exact except on the most negative int32, which is its own negation |
| Integers.NegateInvolution | system/integer.go:44-46 | negating twice is the identity, even on the most negative value |
| Integers.CompareAsWritten | system/integer.go:59-61 | the result is the int32 difference, wrapped, so it equals the true difference only when that fits |
| Integers.CompareAsWrittenAgrees | system/integer.go:59-61 | when the difference fits in int32, the sign is the documented one |
| Integers.CompareAsWrittenOverflows | system/integer.go:47-61 | the most negative value compares above 1, and the largest below -1 |
| Integers.Compare | system/integer.go:47-58 | negative, zero or positive exactly as the first operand is below, equal to or above the second |
| Integers.CompareIsOrder | system/integer.go:47-58 | the documented comparison is antisymmetric and transitive |
| Integers.Render | system/integer.go:71-73 | the text starts with a minus sign exactly for negative values, and parses back to the value |
| Integers.ToR4 | system/integer.go:93-95 | the R4 element is a FHIR `integer` without id or extensions |
| Integers.FromR4 | system/integer.go:88-90 | the value of any integer-like element; converting it back gives the element exactly when it is a plain `integer` |
| Integers.R4RoundTrip | system/integer.go:88-95 | FromR4 inverts R4; R4 inverts FromR4 exactly on plain `integer` elements |
| Integers64.Parse | system/integer64.go:20-27 | an accepted text is an optional sign and one or more digits whose signed value is the result; a rejected text is a ParseError carrying it |
| Integers64.ParseNumeral | system/integer64.go:20-27 | every optionally signed numeral whose value fits in int64 is accepted with that value, whatever its sign or leading zeros |
| Integers64.RenderParseRoundTrip | system/integer64.go:20-27 | every int64 parses back from its text |
| Integers64.ParseRejectsOutOfRange | system/integer64.go:20-27 | every numeral whose value lies outside int64 is a ParseError, with or without a sign or leading zeros |
| Integers64.Negate | system/integer64.go:41-43 | negation is exact except on the most negative int64 |
| Integers64.NegateInvolution | system/integer64.go:41-43 | negating twice is the identity |
| Integers64.CompareAsWritten | system/integer64.go:56-58 | the result is the int64 difference, wrapped |
| Integers64.CompareAsWrittenAgrees | system/integer64.go:56-58 | when the difference fits in int64, the sign is the documented one |
| Integers64.CompareAsWrittenOverflows | system/integer64.go:45-58 | the most negative value compares above 1, and the largest below -1 |
| Integers64.Compare | system/integer64.go:45-55 | negative, zero or positive exactly as the first operand is below, equal to or above the second |
| Integers64.CompareIsOrder | system/integer64.go:45-55 | the documented comparison is antisymmetric and transitive |
| Integers64.Render | system/integer64.go:68-70 | the text starts with a minus sign exactly for negative values, and parses back to the value |
| Integers64.Unmarshal | system/integer64.go:90-98 | on success the receiver takes the parsed value; on failure it keeps its value and the ParseError is returned |
| Integers64.MarshalUnmarshalRoundTrip | system/integer64.go:85-121 | unmarshalling what MarshalJSON or MarshalText wrote restores the value, into any receiver |
| Integers64.UnmarshalFailureKeepsReceiver | system/integer64.go:113-121 | unmarshalling "bad value" leaves the receiver unchanged and reports a ParseError |
| Decimals.Compare | system/decimal.go:55-59 | the sign of the difference of the exact values, whatever the exponents |
| Decimals.Equal | system/decimal.go:36-40 | true exactly when the exact values are equal, that is when Compare is zero |
| Decimals.EqualIgnoresExponent | system/decimal.go:36-40 | appending zeros to the coefficient keeps a decimal Equal, so 1.0 equals 1.00 |
| Decimals.CompareIsTotalOrder | system/decimal.go:55-59 | Compare is zero on equal operands, antisymmetric and transitive |
| Decimals.CompareAtAnyScale | system/decimal.go:55-59 | rewriting both operands at any common exponent gives the same sign |
| Decimals.ShiftOrder | system/decimal.go:55-59 | moving the decimal point preserves the order of values |
| Decimals.ScaledValue | system/decimal.go:55-59 | rewriting a decimal at a smaller exponent keeps its value |
| Decimals.Truncate | system/decimal.go:49-50 | the result has at most `precision` fractional digits, and a decimal that already does is unchanged |
| Decimals.Places | system/decimal.go:44-46 | the clamped precision of a decimal is the fewest places at which truncating it leaves it unchanged; this is the intended count, and the int32 wrap at exponent -2147483648 is under "## Findings" |
| Decimals.TruncateValue | system/decimal.go:49-50 | truncation drops digits toward zero and never rounds |
| Decimals.TruncShift | system/decimal.go:49-50 | integer division rounded toward zero agrees with truncating the exact quotient |
| Decimals.TruncatedEqualityAt | system/decimal.go:49-52 | Equal truncations are truncated exact values that agree |
| Decimals.Equivalent | system/decimal.go:42-53 | true exactly when the exact values, truncated to the smaller number of fractional digits, agree; Equal decimals are equivalent |
| Decimals.EquivalentReflexiveSymmetric | system/decimal.go:42-53 | Equivalent is reflexive and symmetric |
| Decimals.EquivalentExamples | system/decimal.go:42-53 | 1.0 ~ 1.00 holds, and 1.05 ~ 1.1 does not |
| Decimals.EquivalentNotTransitive | system/decimal.go:42-53 | 1.11 ~ 1.1 and 1.1 ~ 1.19 hold, but 1.11 ~ 1.19 does not |
| Decimals.EquivalentAsWrittenAgrees | system/decimal.go:42-53 | with int32 exponents other than -2147483648, the int32 computation of the precision gives exactly Equivalent |
| Decimals.EquivalentAsWrittenAtLeastExponent | system/decimal.go:44-50 | when one exponent is -2147483648, the int32 negation wraps, the precision is negative, the library's Truncate is skipped, and the result is plain Equal |
| Decimals.LeastExponentCounterexample | system/decimal.go:44-52 | 1E-2147483648 is Equivalent to 0 at zero places, but the computation as written calls them different |
| Decimals.IntPart | system/decimal.go:63-71 | the integer part, truncated toward zero, of the exact value |
| Decimals.ToInteger64 | system/decimal.go:68-71 | the integer part when it fits in int64, and otherwise the integer part wrapped |
| Decimals.ToInteger | system/decimal.go:63-66 | the integer part when it fits in int32, and otherwise the integer part wrapped |
| Decimals.ToIntegerExamples | system/decimal.go:63-71 | -1.5 gives -1, -1.9 gives -1, 2.5 gives 2, 3E2 gives 300 |
| Decimals.Parse | system/decimal.go:23-31 | accepts exactly what the library parser accepts, and returns the library's value for it; a rejected text is a ParseError carrying it |
| Decimals.UnmarshalJSON | system/decimal.go:102-111 | on failure the receiver keeps its value; on success it takes the parsed one |
| Decimals.UnmarshalText | system/decimal.go:125-130 | on failure the receiver becomes zero; on success it takes the parsed one |
| Decimals.UnmarshalJSONAndTextDiffer | system/decimal.go:102-130 | the two report the same errors, and leave different receivers exactly when parsing fails on a non-zero receiver |
| Strings.Parse | system/string.go:21-40 | accepted exactly when the input has an opening quote, a closing quote other than the opening one, and a body that decodes; the value is the decoded body |
| Strings.ParseRejects | system/string.go:24-32 | "'", "", "abc", "'abc", "abc'" and a body ending in a backslash are rejected |
| Strings.ParseExamples | system/string.go:21-40 | `''` is the empty string and `'it\'s'` is it's |
| Strings.EscapeDecodes | system/string.go:34-39 | decoding undoes the escaping of backslashes, quotes and newlines (the helper Escape, which writes a literal's body), for every string |
| Strings.LiteralRoundTrip | system/string.go:21-40 | every string is what its own literal parses to |
| Strings.Compare | system/string.go:54-57 | the result is -1, 0 or 1, and 0 exactly for identical strings |
| Strings.CompareIsLexicographic | system/string.go:54-57 | negative exactly when the first string is a proper prefix or has the smaller character at the first difference |
| Strings.CompareAntisymmetric | system/string.go:54-57 | swapping the operands negates the result |
| Strings.CompareExamples | system/string.go:54-57 | "123" sorts before "987", and a prefix before its extension |
| Strings.ToLower | system/string.go:67 | the same length, each character lower-cased |
| Strings.ReplaceWhitespace | system/string.go:140-148 | the same length, with each tab, line feed and carriage return made one space |
| Strings.Normalize | system/string.go:66-70 | the same length, each character lower-cased and whitespace-mapped |
| Strings.Equivalent | system/string.go:59-70 | true exactly when the strings have the same length and agree character by character after case folding and whitespace mapping |
| Strings.NormalizeIdempotent | system/string.go:66-70 | normalizing a normalized string changes nothing |
| Strings.EquivalentIsEquivalence | system/string.go:59-64 | Equivalent is reflexive, symmetric and transitive |
| Strings.EquivalentExamples | system/string.go:54-70 | HELLO ~ hello although they compare unequal; tabs and newlines count as spaces; runs of spaces are not collapsed |
| Strings.ToR4 | system/string.go:91-94 | the R4 element is a FHIR `string` without id or extensions |
| Strings.FromR4 | system/string.go:96-99 | the value of any string-like element; converting it back gives the element exactly when it is a plain `string` |
| Strings.R4RoundTrip | system/string.go:91-99 | FromR4 inverts R4; R4 inverts FromR4 exactly on plain `string` elements |
| SystemTypes.IsType | system/any.go:8-17 | a name is accepted exactly when it is one of the nine System type names, spelled as they are |
| SystemTypes.IsTypeOfValues | system/any.go:10-17 | every value's type name is accepted except Integer64's |
| SystemTypes.IsTypeExamples | system/any.go:10-17 | the nine names are accepted; other cases, "Integer64", "System.String", "" and "Long" are not |
| Conversion.FromR4 | system/conv.go:10-27 | booleans, integer-like and string-like elements convert to the matching System type, and every other element fails with NotConvertible |
| Conversion.ToR4 | system/conv.go:13-24 | Boolean, Integer and String have an R4 form; Integer64 and Decimal do not |
| Conversion.R4RoundTrip | system/conv.go:13-24 | converting a System value to R4 and back gives it back |
| Conversion.FromR4KeepsValue | system/conv.go:12-25 | the value of an element survives the conversion; only id, extensions and the precise type name are lost |
| Conversion.Normalize | system/conv.go:29-41 | only convertible elements change, and they become their System value; everything else is returned as it is |
| Conversion.NormalizeIdempotent | system/conv.go:29-41 | normalizing twice is normalizing once |
| Conversion.NormalizeResult | system/conv.go:31-41 | no convertible element is left, and resources, System values and other values are untouched |
| Collections.Of | collection/collection.go:31-54 | the arguments are the collection exactly when each is a resource, an element or a System value; otherwise it panics on the first bad argument |
| Collections.Singleton | collection/collection.go:72-83 | the one-value collection, with the same panic for a bad value |
| Collections.IsValidType | collection/collection.go:48-54 | a value may be held exactly when it is not a type specifier or a foreign Go value |
| Collections.Constants | collection/collection.go:20-25 | True and False are valid singletons that evaluate to the Boolean they hold, and Empty is empty |
| Collections.Join | collection/collection.go:85-99 | the values of the collections in argument order; the length is the sum of the lengths |
| Collections.ConcatAppend | collection/collection.go:85-99 | joining is associative over the list of collections |
| Collections.ConcatMembership | collection/collection.go:85-99 | a value is in the join exactly when it is in one of the collections |
| Collections.JoinExamples | collection/collection.go:85-99 | the empty collection is neutral, and Hello joined with 42 gives both in order |
| Collections.IsEmpty | collection/collection.go:101-104 | true exactly for the empty collection |
| Collections.IsSingleton | collection/collection.go:106-109 | true exactly for collections of one value |
| Collections.Len | collection/collection.go:111-114 | zero exactly when empty, one exactly when a singleton |
| Collections.LenOfJoin | collection/collection.go:85-114 | a join's length is the sum of the parts' lengths, and it is empty exactly when every part is |
| Collections.SingletonValue | collection/collection.go:116-123 | the one value of a singleton; ErrNotSingleton for any other length |
| Collections.SingletonBoolean | collection/collection.go:125-151 | empty stays empty; two or more values are ErrNotSingleton; the result is False exactly for a single value that normalizes to false, and True for any other single value |
| Collections.Bool | collection/collection.go:153-167 | ErrNotSingleton unless exactly one value, the empty collection included; false exactly for a value that normalizes to false |
| Collections.BoolAgreesWithSingletonBoolean | collection/collection.go:136-167 | Bool and SingletonBoolean agree on singletons and on two or more values, and differ on the empty collection |
| Collections.BoolOfSingletons | collection/collection.go:158-167 | the only false singletons are the System false and a FHIR boolean false |
| Collections.SingletonExamples | collection/collection.go:116-167 | the singleton, empty, two-value and non-Boolean cases of the Go package's tests |
| Collections.String | collection/collection.go:169-189 | a singleton System String or FHIR string-like element gives its text; ErrNotSingleton or NotConvertible otherwise |
| Collections.Int32 | collection/collection.go:191-210 | a singleton System Integer or FHIR integer-like element gives its value; ErrNotSingleton or NotConvertible otherwise |
| Collections.ConversionExamples | collection/collection.go:179-210 | Hello and 42 convert; an empty or two-value collection is not a singleton; an Integer is not a string, and an Integer64 or a String is not an int32 |
| Collections.Normalize | collection/collection.go:212-220 | the same length, each value normalized in place |
| Collections.NormalizeIdempotent | collection/collection.go:212-220 | normalizing a collection twice is normalizing it once |
| Collections.NormalizeAppend | collection/collection.go:212-220 | normalizing a join is joining the normalized parts |
| Collections.NormalizeLeavesNoConvertible | collection/collection.go:212-220 | a normalized collection holds no convertible FHIR element |
| Collections.Equal | collection/collection.go:222-235 | true exactly when the collections hold the same values in the same order |
| Namespaces.NameBy | namespace/namespace.go:99-109 | the FHIR namer names a type or a pointer to it; the System namer names only a type that is not a pointer |
| Namespaces.NamersCompared | namespace/namespace.go:99-109 | the namers agree on non-pointers and differ on a pointer to a named type |
| Namespaces.PackageNamespaces | namespace/namespace.go:11-17 | FHIR contains exactly the types implementing one of the four R4 interfaces and names them with the FHIR namer; System contains exactly the system.Any types and names them with the System namer |
| Namespaces.Name | namespace/namespace.go:76-80 | the type's own name or nothing |
| Namespaces.QualifiedName | namespace/namespace.go:65-74 | the namespace's name (String), a dot, and the type's name in the namespace |
| Namespaces.QualifiedNameInjective | namespace/namespace.go:70-74 | when namespace names have no dot, the qualified name determines the namespace name and the type name |
| Namespaces.ImplementsAny | namespace/namespace.go:83-90 | true exactly when the type implements one of the interfaces |
| Namespaces.Contains | namespace/namespace.go:82-90 | true exactly when the type implements at least one of the namespace's interfaces |
| Namespaces.Select | namespace/namespace.go:19-28 | the first namespace in argument order that contains the type, and none when none does |
| Namespaces.SelectPrefersFirst | namespace/namespace.go:19-28 | a type two namespaces contain goes to the one given first |
| Namespaces.SelectExamples | namespace/namespace.go:11-28 | Patient, Quantity and Element go to FHIR, String to System, testing.T to none |
| Namespaces.NameExamples | namespace/namespace.go:11-17 | String gives "FHIR" and "System"; the names and qualified names of the Go package's tests, such as FHIR.Patient and System.String, with containment refused across namespaces |

## Left out

- Go strings are UTF-8 bytes, but the model works on characters. In Go, a `\x` or octal escape of 0x80 or above yields a raw byte (not valid UTF-8 on its own); the model yields the character with that number.
- Strings.ToLower, Strings.Normalize, Strings.Equivalent: lower-casing covers the ASCII letters only. Go's `strings.ToLower` uses the full Unicode case tables, which are not modelled, so it also folds non-ASCII letters (U+0130 becomes 'i', one character for one, though its UTF-8 length drops from two bytes to one).
- Decimals: the exponent is an unbounded integer. The library keeps it in an int32, and decimals whose exponent would overflow are not modelled. At the least int32 exponent, -2147483648, the source's Equivalent wraps its precision negative; that case is under "## Findings", and the rest of the model uses the intended Equivalent.
- Decimals.Parse: ParseDecimal's text format belongs to the shopspring library, so the parser is a parameter. The library's String and NewDecimal (floating point), and Float64 and Format, are not modelled either.
- Decimals.ToInteger64: beyond int64, the library's IntPart returns `big.Int.Int64`, whose result Go leaves undefined. The model takes the low 64 bits.
- Collections.Equal: Go's `!=` on interface values compares a System Decimal by the pointer inside its `big.Int`; the model compares decimals by coefficient and exponent. A Go value of a type `!=` cannot compare (a slice, say) panics in Go; the model compares it by type name.
- Collections.Of: the panic is modelled as an error result that carries the offending value; its message text is not modelled.
- FromSlice: it copies a typed slice into `[]any` and calls Of; in the model every slice already holds values, so FromSlice is Of.
- The capacity that Join and Normalize reserve is an allocation hint with no effect on the result.
- The accessors `Boolean.Bool`, `Integer.Int32` and `Integer64.Int64` are the identity, because the model represents each System value by its Go value.
- Namespaces: the datatype constructor is New. NamerFunc with an arbitrary function is not modelled, only the two namers the package defines.
- Namespaces.GoType: whether a Go type implements an interface comes from the Go type system. The model takes it as part of the type's description.
- Not modelled, because they are I/O, library formatting or option plumbing:
  - JSON and text marshalling of Boolean, Integer and String;
  - the `fmt.Formatter` methods;
  - `NewString`, `MustParse*`;
  - the error-message formatting of `system/errors.go`;
  - the compile and evaluate entry points;
  - the tracer, the resolver, and the environment context.
- Values: two values with the same reference number are taken to hold the same resource or element, as one Go pointer does. Go's `==` compares only the pointer.
- FHIR elements carry only the parts the conversions read: the value, the type name, an id, and an extension count. Everything else about FHIR resources is their resource type and identity.

## Findings

| source | as written | input that shows it | evidently intended | confidence | as-written member | corrected member |
|---|---|---|---|---|---|---|
| system/integer.go:59-61 | `int(i - other)` subtracts in int32 and then widens, so an overflowing difference wraps and flips the sign | Compare(-2147483648, 1) is positive; Compare(2147483647, -1) is negative | negative, zero or positive as i is below, equal to or above other, as the doc comment at lines 47-58 says | not executed | Integers.CompareAsWrittenOverflows | Integers.Compare |
| system/integer64.go:56-58 | `int(i - other)` subtracts in int64, so an overflowing difference wraps and flips the sign | Compare(-9223372036854775808, 1) is positive; Compare(9223372036854775807, -1) is negative | the sign of the comparison, as the doc comment at lines 45-55 says | not executed | Integers64.CompareAsWrittenOverflows | Integers64.Compare |
| system/decimal.go:44-45 | `-min(0, Exponent())` negates in int32, so an exponent of -2147483648 gives a precision of -2147483648; the library's Truncate ignores a negative precision, and Equivalent falls back to Equal | 1E-2147483648 and 0: not equivalent as written, although they agree at the zero places 0 has | a positive precision of 2147483648 places, as the comment at line 44 describes, so the smaller precision 0 is used | not executed | Decimals.LeastExponentCounterexample | Decimals.Equivalent |

=== FILE: booleans.dfy ===
/** System.Boolean: parsing, negation, rendering and the FHIR R4 conversions. */
module Booleans {
  import opened Results
  import opened Errors
  import Fhir

  const TypeName: string := "Boolean"

  /** ParseBoolean: exactly the lower-case words "true" and "false" are accepted. */
  function Parse(s: string): (r: Result<bool, ParseError>)
    ensures r.Ok? <==> s == "true" || s == "false"
    ensures r.Ok? ==> r.value == (s == "true")
    ensures r.Err? ==> r.error == ParseError(TypeName, s)
  {
    match s
    case "true" => Ok(true)
    case "false" => Ok(false)
    case _ => Err(ParseError(TypeName, s))
  }

  /** Negate: the opposite polarity. */
  function Negate(b: bool): (r: bool)
    ensures r != b
  {
    !b
  }

  /** String (strconv.FormatBool). */
  function Render(b: bool): (s: string)
    ensures Parse(s) == Ok(b)
  {
    if b then "true" else "false"
  }

  /** R4: a fresh FHIR boolean with the same value and no id or extensions. */
  function ToR4(b: bool): (e: Fhir.Element)
    ensures e.Boolean? && e.extras == Fhir.NoExtras
  {
    Fhir.Boolean(b, Fhir.NoExtras)
  }

  /** FromR4: the value of a FHIR boolean; its id and extensions are dropped. */
  function FromR4(e: Fhir.Element): (r: bool)
    requires e.Boolean?
    ensures ToR4(r) == e <==> e.extras == Fhir.NoExtras
  {
    e.boolValue
  }

  /** Negating twice is the identity. */
  lemma NegateInvolution(b: bool)
    ensures Negate(Negate(b)) == b
  {
  }

  /** Rendering and parsing are inverse: every Boolean's text parses back to it, and every accepted text is the rendering of its value. */
  lemma RenderParseRoundTrip(b: bool, s: string)
    ensures Parse(Render(b)) == Ok(b)
    ensures Parse(s).Ok? ==> Render(Parse(s).value) == s
  {
  }

  /** Parsing is case-sensitive and does not trim. */
  lemma ParseIsStrict()
    ensures Parse("True").Err? && Parse("TRUE").Err? && Parse("").Err?
    ensures Parse(" true").Err? && Parse("1").Err? && Parse("t").Err?
  {
  }

  /** Converting to R4 and back is the identity; back and forth keeps exactly the plain elements. */
  lemma R4RoundTrip(b: bool, e: Fhir.Element)
    ensures FromR4(ToR4(b)) == b
    ensures e.Boolean? ==> (ToR4(FromR4(e)) == e <==> e.extras == Fhir.NoExtras)
  {
  }
}

=== FILE: collections.dfy ===
/**
 FHIRPath collections (collection/collection.go): ordered sequences of values
 that are both the input and the output of every FHIRPath expression, with
 their construction, concatenation, and the singleton conversions FHIRPath's
 "singleton evaluation of collections" defines.
 */
module Collections {
  import opened Results
  import Numerals
  import SystemTypes
  import opened Values
  import Conversion

  type Collection = seq<Value>

  /** A collection holding only the Boolean true. */
  const True: Collection := [System(SystemTypes.Boolean(true))]

  /** A collection holding only the Boolean false. */
  const False: Collection := [System(SystemTypes.Boolean(false))]

  /** The collection with no values. */
  const Empty: Collection := []

  /**
   True and False are valid singletons that evaluate to the Boolean they
   hold, and Empty is the empty collection.
   */
  lemma Constants()
    ensures IsEmpty(Empty) && IsSingleton(True) && IsSingleton(False)
    ensures AllValid(True) && AllValid(False) && AllValid(Empty)
    ensures SingletonBoolean(True) == Ok(True) && SingletonBoolean(False) == Ok(False)
    ensures Bool(True) == Ok(true) && Bool(False) == Ok(false)
  {
  }

  /** ErrNotSingleton, and ErrNotConvertible with the value found and the Go type wanted. */
  datatype CollError = NotSingleton | NotConvertible(got: Value, want: string)

  /** The panic of Of on an input of a type collections may not hold. */
  datatype Panic = InvalidInputType(arg: Value)

  /**
   The types a collection may hold: FHIR resources, FHIR elements and System
   values. Type specifiers are refused, although the documentation of Of
   lists them.
   */
  function IsValidType(v: Value): (r: bool)
    ensures r <==> !v.TypeSpecifier? && !v.Foreign?
  {
    v.Resource? || v.Element? || v.System?
  }

  /** Every value of s is of a valid type. */
  predicate AllValid(s: seq<Value>) {
    forall i :: 0 <= i < |s| ==> IsValidType(s[i])
  }

  /**
   Of: the arguments as a collection, or a panic on the first argument whose
   type is not valid.
   */
  method Of(args: seq<Value>) returns (r: Result<Collection, Panic>)
    ensures r.Ok? <==> AllValid(args)
    ensures r.Ok? ==> r.value == args
    ensures r.Err? ==> exists i :: 0 <= i < |args| && r.error == InvalidInputType(args[i]) && !IsValidType(args[i]) && AllValid(args[..i])
  {
    for i := 0 to |args|
      invariant AllValid(args[..i])
    {
      if !IsValidType(args[i]) {
        return Err(InvalidInputType(args[i]));
      }
    }
    assert args[..|args|] == args;
    return Ok(args);
  }

  /** Singleton: the collection of one value, under the same rule as Of. */
  method Singleton(v: Value) returns (r: Result<Collection, Panic>)
    ensures r.Ok? <==> IsValidType(v)
    ensures r.Ok? ==> r.value == [v] && |r.value| == 1
    ensures r.Err? ==> r.error == InvalidInputType(v)
  {
    assert AllValid([v]) <==> IsValidType([v][0]);
    r := Of([v]);
  }

  /** The values of the collections, one after the other. */
  function Concat(cs: seq<Collection>): Collection {
    if |cs| == 0 then [] else cs[0] + Concat(cs[1..])
  }

  /** The total number of values in the collections. */
  function TotalLen(cs: seq<Collection>): nat {
    if |cs| == 0 then 0 else |cs[0]| + TotalLen(cs[1..])
  }

  /** Concatenating one more collection at the end appends its values. */
  lemma {:induction false} ConcatSnoc(cs: seq<Collection>, c: Collection)
    ensures Concat(cs + [c]) == Concat(cs) + c
  {
    if |cs| == 0 {
      assert cs + [c] == [c];
    } else {
      assert (cs + [c])[1..] == cs[1..] + [c];
      ConcatSnoc(cs[1..], c);
    }
  }

  /** Concatenation distributes over joining lists of collections. */
  lemma {:induction false} ConcatAppend(xs: seq<Collection>, ys: seq<Collection>)
    ensures Concat(xs + ys) == Concat(xs) + Concat(ys)
  {
    if |xs| == 0 {
      assert xs + ys == ys;
    } else {
      assert (xs + ys)[1..] == xs[1..] + ys;
      ConcatAppend(xs[1..], ys);
    }
  }

  /** The concatenation holds exactly as many values as the collections together. */
  lemma {:induction false} ConcatLength(cs: seq<Collection>)
    ensures |Concat(cs)| == TotalLen(cs)
  {
    if |cs| > 0 {
      ConcatLength(cs[1..]);
    }
  }

  /** A value is in the concatenation exactly when it is in one of the collections. */
  lemma {:induction false} ConcatMembership(cs: seq<Collection>, v: Value)
    ensures v in Concat(cs) <==> exists k :: 0 <= k < |cs| && v in cs[k]
  {
    if |cs| > 0 {
      ConcatMembership(cs[1..], v);
      if v in Concat(cs[1..]) {
        var k :| 0 <= k < |cs[1..]| && v in cs[1..][k];
        assert v in cs[k + 1];
      }
      if exists k :: 0 <= k < |cs| && v in cs[k] {
        var k :| 0 <= k < |cs| && v in cs[k];
        if k > 0 {
          assert v in cs[1..][k - 1];
        }
      }
    }
  }

  /**
   Join: all the values of the collections in order, appended one collection
   at a time.
   */
  method Join(collections: seq<Collection>) returns (result: Collection)
    ensures result == Concat(collections)
    ensures |result| == TotalLen(collections)
  {
    result := [];
    for i := 0 to |collections|
      invariant result == Concat(collections[..i])
    {
      assert collections[..i + 1] == collections[..i] + [collections[i]];
      ConcatSnoc(collections[..i], collections[i]);
      result := result + collections[i];
    }
    assert collections[..|collections|] == collections;
    ConcatLength(collections);
  }

  /** The joins of the Go package's tests: empty collections are neutral. */
  lemma JoinExamples()
    ensures Concat([Empty, Empty]) == Empty
    ensures Concat([Empty, [System(SystemTypes.String("Hello"))]]) == [System(SystemTypes.String("Hello"))]
    ensures Concat([[System(SystemTypes.String("Hello"))], Empty]) == [System(SystemTypes.String("Hello"))]
    ensures Concat([[System(SystemTypes.String("Hello"))], [System(SystemTypes.Integer(42))]])
         == [System(SystemTypes.String("Hello")), System(SystemTypes.Integer(42))]
  {
    assert [Empty, Empty][1..] == [Empty];
    assert [Empty, [System(SystemTypes.String("Hello"))]][1..] == [[System(SystemTypes.String("Hello"))]];
    assert [[System(SystemTypes.String("Hello"))], Empty][1..] == [Empty];
    assert [[System(SystemTypes.String("Hello"))], [System(SystemTypes.Integer(42))]][1..] == [[System(SystemTypes.Integer(42))]];
    assert Concat([Empty]) == Empty;
    assert Concat([[System(SystemTypes.String("Hello"))]]) == [System(SystemTypes.String("Hello"))];
    assert Concat([[System(SystemTypes.Integer(42))]]) == [System(SystemTypes.Integer(42))];
  }

  /** IsEmpty: whether the collection holds no value. */
  function IsEmpty(c: Collection): (r: bool)
    ensures r <==> c == Empty
  {
    |c| == 0
  }

  /** IsSingleton: whether the collection holds exactly one value. */
  function IsSingleton(c: Collection): (r: bool)
    ensures r <==> exists v :: c == [v]
  {
    assert |c| == 1 ==> c == [c[0]];
    |c| == 1
  }

  /** Len: the number of values. */
  function Len(c: Collection): (r: nat)
    ensures r == 0 <==> IsEmpty(c)
    ensures r == 1 <==> IsSingleton(c)
  {
    |c|
  }

  /** The length of a join is the sum of the lengths; it is empty exactly when every part is. */
  lemma LenOfJoin(cs: seq<Collection>)
    ensures Len(Concat(cs)) == TotalLen(cs)
    ensures IsEmpty(Concat(cs)) <==> forall k :: 0 <= k < |cs| ==> IsEmpty(cs[k])
  {
    ConcatLength(cs);
    if !IsEmpty(Concat(cs)) {
      var v := Concat(cs)[0];
      ConcatMembership(cs, v);
    }
    if exists k :: 0 <= k < |cs| && !IsEmpty(cs[k]) {
      var k :| 0 <= k < |cs| && !IsEmpty(cs[k]);
      ConcatMembership(cs, cs[k][0]);
    }
  }

  /** Collection.Singleton: the one value of a singleton, or ErrNotSingleton. */
  function SingletonValue(c: Collection): (r: Result<Value, CollError>)
    ensures r.Ok? <==> IsSingleton(c)
    ensures r.Ok? ==> c == [r.value]
    ensures r.Err? ==> r.error == NotSingleton
  {
    if !IsSingleton(c) then Err(NotSingleton) else Ok(c[0])
  }

  /** The value normalizes to the System Boolean b. */
  predicate IsBoolean(v: Value, b: bool) {
    Conversion.Normalize(v) == System(SystemTypes.Boolean(b))
  }

  /**
   SingletonBoolean, FHIRPath's singleton evaluation of a collection as a
   Boolean: an empty collection stays empty, more than one value is an
   error, a value that normalizes to a Boolean gives that Boolean, and any
   other single value counts as true.
   */
  function SingletonBoolean(c: Collection): (r: Result<Collection, CollError>)
    ensures r == Ok(Empty) <==> IsEmpty(c)
    ensures r.Err? <==> |c| >= 2
    ensures r.Err? ==> r.error == NotSingleton
    ensures r == Ok(False) <==> IsSingleton(c) && IsBoolean(c[0], false)
    ensures r.Ok? ==> r.value == Empty || r.value == True || r.value == False
  {
    if IsEmpty(c) then Ok(Empty)
    else if !IsSingleton(c) then Err(NotSingleton)
    else
      var n := Conversion.Normalize(c[0]);
      if n.System? && n.value.Boolean? then Ok([n]) else Ok(True)
  }

  /**
   Bool: the single value of a singleton as a Go bool, false only for a value
   that normalizes to the Boolean false; ErrNotSingleton otherwise, the empty
   collection included.
   */
  function Bool(c: Collection): (r: Result<bool, CollError>)
    ensures r.Ok? <==> IsSingleton(c)
    ensures r.Err? ==> r.error == NotSingleton
    ensures r == Ok(false) <==> IsSingleton(c) && IsBoolean(c[0], false)
  {
    if !IsSingleton(c) then Err(NotSingleton)
    else
      var n := Conversion.Normalize(c[0]);
      if n.System? && n.value.Boolean? then Ok(n.value.boolValue) else Ok(true)
  }

  /** Bool and SingletonBoolean agree on singletons and differ only on the empty collection. */
  lemma BoolAgreesWithSingletonBoolean(c: Collection)
    ensures IsSingleton(c) ==> SingletonBoolean(c) == Ok([System(SystemTypes.Boolean(Bool(c).value))])
    ensures IsEmpty(c) ==> SingletonBoolean(c).Ok? && Bool(c).Err?
    ensures |c| >= 2 ==> SingletonBoolean(c) == Err(NotSingleton) && Bool(c) == Err(NotSingleton)
  {
  }

  /** Only the Boolean false, as a System value or a FHIR boolean, is false; every other single value is true. */
  lemma BoolOfSingletons(v: Value)
    ensures Bool([v]) == Ok(false) <==> v == System(SystemTypes.Boolean(false)) || (v.Element? && v.element.Boolean? && !v.element.boolValue)
  {
  }

  /** The cases of the Go package's tests. */
  lemma SingletonExamples()
    ensures SingletonBoolean(True) == Ok(True) && Bool(True) == Ok(true)
    ensures SingletonBoolean(Empty) == Ok(Empty) && Bool(Empty) == Err(NotSingleton)
    ensures SingletonBoolean(True + False) == Err(NotSingleton) && Bool(True + False) == Err(NotSingleton)
    ensures SingletonBoolean([System(SystemTypes.Integer(42))]) == Ok(True) && Bool([System(SystemTypes.Integer(42))]) == Ok(true)
    ensures SingletonValue([System(SystemTypes.String("Hello"))]) == Ok(System(SystemTypes.String("Hello")))
  {
  }

  /**
   String: the single value of a singleton as a Go string, when it is a
   System String or a FHIR string-like element; ErrNotSingleton or
   ErrNotConvertible otherwise.
   */
  function String(c: Collection): (r: Result<string, CollError>)
    ensures r.Ok? <==> IsSingleton(c) && ((c[0].System? && c[0].value.String?) || (c[0].Element? && c[0].element.String?))
    ensures r.Ok? && c[0].System? ==> r.value == c[0].value.stringValue
    ensures r.Ok? && c[0].Element? ==> r.value == c[0].element.stringValue
    ensures r.Err? ==> r.error == if IsSingleton(c) then NotConvertible(c[0], "string") else NotSingleton
  {
    if !IsSingleton(c) then Err(NotSingleton)
    else
      var n := Conversion.Normalize(c[0]);
      if n.System? && n.value.String? then Ok(n.value.stringValue) else Err(NotConvertible(c[0], "string"))
  }

  /**
   Int32: the single value of a singleton as a Go int32, when it is a
   System Integer or a FHIR integer-like element; ErrNotSingleton or
   ErrNotConvertible otherwise. A System Integer64 is not converted.
   */
  function Int32(c: Collection): (r: Result<Numerals.Int32, CollError>)
    ensures r.Ok? <==> IsSingleton(c) && ((c[0].System? && c[0].value.Integer?) || (c[0].Element? && c[0].element.Integer?))
    ensures r.Ok? && c[0].System? ==> r.value == c[0].value.intValue
    ensures r.Ok? && c[0].Element? ==> r.value == c[0].element.intValue
    ensures r.Err? ==> r.error == if IsSingleton(c) then NotConvertible(c[0], "int32") else NotSingleton
  {
    if !IsSingleton(c) then Err(NotSingleton)
    else
      var n := Conversion.Normalize(c[0]);
      if n.System? && n.value.Integer? then Ok(n.value.intValue) else Err(NotConvertible(c[0], "int32"))
  }

  /** The cases of the Go package's tests. */
  lemma ConversionExamples()
    ensures String([System(SystemTypes.String("Hello"))]) == Ok("Hello")
    ensures String(Empty) == Err(NotSingleton)
    ensures String([System(SystemTypes.String("Hello")), System(SystemTypes.String("world"))]) == Err(NotSingleton)
    ensures String([System(SystemTypes.Integer(42))]).Err? && String([System(SystemTypes.Integer(42))]).error.NotConvertible?
    ensures Int32([System(SystemTypes.Integer(42))]) == Ok(42)
    ensures Int32([System(SystemTypes.Integer64(42))]).Err?
    ensures Int32([System(SystemTypes.String("Hello"))]).Err? && Int32([System(SystemTypes.String("Hello"))]).error.NotConvertible?
  {
  }

  /** Normalize: every value normalized into a System value where it can be, in order. */
  function Normalize(c: Collection): (r: Collection)
    ensures |r| == |c|
    ensures forall i :: 0 <= i < |c| ==> r[i] == Conversion.Normalize(c[i])
  {
    if |c| == 0 then [] else [Conversion.Normalize(c[0])] + Normalize(c[1..])
  }

  /** Normalizing a collection twice is normalizing it once. */
  lemma NormalizeIdempotent(c: Collection)
    ensures Normalize(Normalize(c)) == Normalize(c)
  {
    forall i | 0 <= i < |c|
      ensures Normalize(Normalize(c))[i] == Normalize(c)[i]
    {
      Conversion.NormalizeIdempotent(c[i]);
    }
  }

  /** Normalizing commutes with concatenation, so a join may be normalized part by part. */
  lemma NormalizeAppend(a: Collection, b: Collection)
    ensures Normalize(a + b) == Normalize(a) + Normalize(b)
  {
  }

  /** A normalized collection holds no FHIR element that could be converted. */
  lemma NormalizeLeavesNoConvertible(c: Collection)
    ensures forall i :: 0 <= i < |c| && Normalize(c)[i].Element? ==> Normalize(c)[i].element.Other?
  {
    forall i | 0 <= i < |c|
      ensures Normalize(c)[i].Element? ==> Normalize(c)[i].element.Other?
    {
      Conversion.NormalizeResult(c[i]);
    }
  }

  /**
   Equal: the collections hold the same values in the same order, each
   compared with Go's `!=` on interface values: FHIR resources and elements
   by identity, System values by value.
   */
  method Equal(c: Collection, other: Collection) returns (r: bool)
    ensures r <==> c == other
  {
    if |c| != |other| {
      return false;
    }
    for i := 0 to |c|
      invariant c[..i] == other[..i]
    {
      if c[i] != other[i] {
        return false;
      }
      assert c[..i + 1] == c[..i] + [c[i]];
      assert other[..i + 1] == other[..i] + [other[i]];
    }
    assert c == c[..|c|] && other == other[..|other|];
    return true;
  }
}

=== FILE: conversion.dfy ===
/**
 The conversions between FHIR R4 elements and System values (system/conv.go):
 the strict `FromR4`, which fails on anything but a boolean, an integer or a
 string element, and the permissive `Normalize`, which converts what it can
 and passes everything else through.
 */
module Conversion {
  import opened Results
  import Fhir
  import opened SystemTypes
  import opened Values
  import Booleans
  import Integers
  import Strings

  /** system.ErrNotConvertible, with the type of the element that could not be converted. */
  datatype ConvError = NotConvertible(typeName: string)

  /**
   FromR4: a FHIR boolean becomes a Boolean, any integer-like element an
   Integer, any string-like element a String, in that order; every other
   element is not convertible. Integer64 and Decimal never result.
   */
  function FromR4(e: Fhir.Element): (r: Result<Any, ConvError>)
    ensures r.Ok? <==> !e.Other?
    ensures r.Ok? ==> (r.value.Boolean? <==> e.Boolean?) && (r.value.Integer? <==> e.Integer?) && (r.value.String? <==> e.String?)
    ensures r.Err? ==> r.error == NotConvertible(e.typeName)
  {
    match e
    case Boolean(_, _) => Ok(Boolean(Booleans.FromR4(e)))
    case Integer(_, _, _) => Ok(Integer(Integers.FromR4(e)))
    case String(_, _, _) => Ok(String(Strings.FromR4(e)))
    case Other(t) => Err(NotConvertible(t))
  }

  /** The R4 method of a System value: Boolean, Integer and String have one, Integer64 and Decimal do not. */
  function ToR4(a: Any): (r: Option<Fhir.Element>)
    ensures r.Some? <==> a.Boolean? || a.Integer? || a.String?
    ensures r.Some? ==> !r.value.Other?
  {
    match a
    case Boolean(b) => Some(Booleans.ToR4(b))
    case Integer(i) => Some(Integers.ToR4(i))
    case String(s) => Some(Strings.ToR4(s))
    case _ => None
  }

  /** Converting a System value to R4 and back gives it back. */
  lemma R4RoundTrip(a: Any)
    ensures ToR4(a).Some? ==> FromR4(ToR4(a).value) == Ok(a)
  {
    match a
    case Boolean(b) => Booleans.R4RoundTrip(b, Booleans.ToR4(b));
    case Integer(i) => Integers.R4RoundTrip(i, Integers.ToR4(i));
    case String(s) => Strings.R4RoundTrip(s, Strings.ToR4(s));
    case _ =>
  }

  /** Converting an element and back keeps its value: only the id, the extensions and the precise type name are lost. */
  lemma FromR4KeepsValue(e: Fhir.Element)
    ensures FromR4(e).Ok? ==> ToR4(FromR4(e).value).Some?
    ensures e.Boolean? ==> ToR4(FromR4(e).value) == Some(Fhir.Boolean(e.boolValue, Fhir.NoExtras))
    ensures e.Integer? ==> ToR4(FromR4(e).value) == Some(Fhir.Integer("integer", e.intValue, Fhir.NoExtras))
    ensures e.String? ==> ToR4(FromR4(e).value) == Some(Fhir.String("string", e.stringValue, Fhir.NoExtras))
  {
  }

  /**
   Normalize: an element that FromR4 accepts becomes its System value; every
   other value, element or not, is returned as it is.
   */
  function Normalize(v: Value): (r: Value)
    ensures r == v || (v.Element? && !v.element.Other? && r.System?)
    ensures v.Element? && !v.element.Other? ==> r == System(FromR4(v.element).value)
  {
    if !v.Element? then v
    else
      match FromR4(v.element)
      case Ok(a) => System(a)
      case Err(_) => v
  }

  /** Normalizing twice is normalizing once. */
  lemma NormalizeIdempotent(v: Value)
    ensures Normalize(Normalize(v)) == Normalize(v)
  {
  }

  /** Normalized values are never convertible elements, and only System values and elements change. */
  lemma NormalizeResult(v: Value)
    ensures Normalize(v).Element? ==> Normalize(v).element.Other?
    ensures v.Resource? || v.System? || v.TypeSpecifier? || v.Foreign? ==> Normalize(v) == v
  {
  }
}

=== FILE: decimals.dfy ===
/**
 System.Decimal, an arbitrary-precision decimal held as a coefficient and a
 base-10 exponent (the value is coef × 10^exp), as in the shopspring decimal
 library the source wraps. The library's own parser and printer are not
 spelled out: parsing takes the library parser as a parameter.

 The exact value of a decimal, as a Dafny `real`, is the reference the
 comparisons, equivalence and integer conversions are proved against.
 */
module Decimals {
  import opened Results
  import opened Numerals
  import opened Errors

  datatype Decimal = Decimal(coef: int, exp: int)

  /** decimal.New(0, 0), the value ParseDecimal returns beside an error. */
  const Zero: Decimal := Decimal(0, 0)

  const TypeName: string := "Decimal"

  /** 10^n, the divisor big.Int Quo is given when a decimal is rescaled down by n places. */
  function Pow10(n: nat): (r: nat)
    ensures r >= 1
  {
    if n == 0 then 1 else 10 * Pow10(n - 1)
  }

  // ---------------------------------------------------------------------------
  // Exact values

  /**
   x × 10^e, for any integer e, reached by stepping e toward zero one power
   of ten at a time (every step multiplies or divides by the constant ten).
   */
  function Shift(x: real, e: int): real
    decreases if e < 0 then -e else e
  {
    if e == 0 then x
    else if e > 0 then 10.0 * Shift(x, e - 1)
    else Shift(x, e + 1) / 10.0
  }

  /** The exact value of a decimal, coef × 10^exp. */
  function Value(d: Decimal): real {
    Shift(d.coef as real, d.exp)
  }

  /** Raising the exponent by one multiplies by ten, on either side of zero. */
  lemma ShiftStep(x: real, e: int)
    ensures Shift(x, e + 1) == 10.0 * Shift(x, e)
  {
    if e < 0 {
      assert Shift(x, e) == Shift(x, e + 1) / 10.0;
    }
  }

  /** Shifting by e1 and then by e2 is shifting by e1 + e2. */
  lemma {:induction false} ShiftAdd(x: real, e1: int, e2: int)
    ensures Shift(Shift(x, e1), e2) == Shift(x, e1 + e2)
    decreases if e2 < 0 then -e2 else e2
  {
    if e2 > 0 {
      ShiftAdd(x, e1, e2 - 1);
      ShiftStep(x, e1 + e2 - 1);
    } else if e2 < 0 {
      ShiftAdd(x, e1, e2 + 1);
      ShiftStep(x, e1 + e2);
    }
  }

  /** Shifting distributes over subtraction. */
  lemma {:induction false} ShiftSub(x: real, y: real, e: int)
    ensures Shift(x, e) - Shift(y, e) == Shift(x - y, e)
    decreases if e < 0 then -e else e
  {
    if e > 0 {
      ShiftSub(x, y, e - 1);
    } else if e < 0 {
      ShiftSub(x, y, e + 1);
    }
  }

  /** Shifting keeps the sign. */
  lemma {:induction false} ShiftSign(x: real, e: int)
    ensures Shift(x, e) < 0.0 <==> x < 0.0
    ensures Shift(x, e) == 0.0 <==> x == 0.0
    decreases if e < 0 then -e else e
  {
    if e > 0 {
      ShiftSign(x, e - 1);
    } else if e < 0 {
      ShiftSign(x, e + 1);
    }
  }

  /** Shifting by a common exponent preserves and reflects order and equality. */
  lemma ShiftOrder(x: real, y: real, e: int)
    ensures Shift(x, e) < Shift(y, e) <==> x < y
    ensures Shift(x, e) == Shift(y, e) <==> x == y
  {
    ShiftSub(x, y, e);
    ShiftSign(x - y, e);
  }

  /** c × 10^k in integers, one multiplication by ten at a time (big.Int Mul by 10^k). */
  function MulPow10(c: int, k: nat): int {
    if k == 0 then c else 10 * MulPow10(c, k - 1)
  }

  /** Shifting an integer up by k places is exact integer multiplication by 10^k. */
  lemma {:induction false} ShiftInt(c: int, k: nat)
    ensures Shift(c as real, k) == MulPow10(c, k) as real
  {
    if k > 0 {
      ShiftInt(c, k - 1);
    }
  }

  /** The coefficient of d rewritten at the lower exponent e (the library's rescale). */
  function Scaled(d: Decimal, e: int): int
    requires e <= d.exp
  {
    MulPow10(d.coef, d.exp - e)
  }

  /** Rewriting a decimal at a lower exponent keeps its value. */
  lemma ScaledValue(d: Decimal, e: int)
    requires e <= d.exp
    ensures Value(Decimal(Scaled(d, e), e)) == Value(d)
  {
    var k: nat := d.exp - e;
    ShiftInt(d.coef, k);
    ShiftAdd(d.coef as real, k, e);
  }

  // ---------------------------------------------------------------------------
  // Comparison

  function Sign(x: int): (r: int)
    ensures r == -1 || r == 0 || r == 1
    ensures r < 0 <==> x < 0
    ensures r == 0 <==> x == 0
  {
    if x < 0 then -1 else if x > 0 then 1 else 0
  }

  /** Comparing the coefficients at any common exponent orders the exact values. */
  lemma SignAtScale(a: Decimal, b: Decimal, e: int)
    requires e <= a.exp && e <= b.exp
    ensures Sign(Scaled(a, e) - Scaled(b, e)) < 0 <==> Value(a) < Value(b)
    ensures Sign(Scaled(a, e) - Scaled(b, e)) == 0 <==> Value(a) == Value(b)
  {
    ScaledValue(a, e);
    ScaledValue(b, e);
    ShiftOrder(Scaled(a, e) as real, Scaled(b, e) as real, e);
  }

  /**
   Compare (the library's Cmp): both operands are rewritten at the smaller
   exponent and the coefficients compared. The result is the sign of the
   difference of the exact values, whatever the exponents.
   */
  function Compare(a: Decimal, b: Decimal): (r: int)
    ensures r == -1 || r == 0 || r == 1
    ensures r < 0 <==> Value(a) < Value(b)
    ensures r == 0 <==> Value(a) == Value(b)
    ensures r > 0 <==> Value(a) > Value(b)
  {
    var m := if a.exp < b.exp then a.exp else b.exp;
    SignAtScale(a, b, m);
    Sign(Scaled(a, m) - Scaled(b, m))
  }

  /** Equal (the library's Equal, i.e. Cmp == 0): equality of values, not of representations. */
  function Equal(a: Decimal, b: Decimal): (r: bool)
    ensures r <==> Value(a) == Value(b)
    ensures r <==> Compare(a, b) == 0
  {
    Compare(a, b) == 0
  }

  /** Whichever common exponent the operands are rewritten at, the comparison has the same sign. */
  lemma CompareAtAnyScale(a: Decimal, b: Decimal, e: int)
    requires e <= a.exp && e <= b.exp
    ensures Compare(a, b) == Sign(Scaled(a, e) - Scaled(b, e))
  {
    SignAtScale(a, b, e);
  }

  /** Compare is a total order: zero on itself, antisymmetric, transitive. */
  lemma CompareIsTotalOrder(a: Decimal, b: Decimal, c: Decimal)
    ensures Compare(a, a) == 0
    ensures Compare(a, b) == -Compare(b, a)
    ensures Compare(a, b) <= 0 && Compare(b, c) <= 0 ==> Compare(a, c) <= 0
    ensures Compare(a, b) < 0 && Compare(b, c) < 0 ==> Compare(a, c) < 0
  {
  }

  /** Appending zeros to the coefficient while lowering the exponent keeps the decimal Equal: 1.0 equals 1.00. */
  lemma EqualIgnoresExponent(d: Decimal, k: nat)
    ensures Equal(d, Decimal(MulPow10(d.coef, k), d.exp - k))
    ensures Equal(Decimal(10, -1), Decimal(100, -2))
  {
    ScaledValue(d, d.exp - k);
    assert Scaled(d, d.exp - k) == MulPow10(d.coef, k);
    ScaledValue(Decimal(10, -1), -2);
  }

  // ---------------------------------------------------------------------------
  // Truncation

  /** Division of x by a positive y rounded toward zero (Go's big.Int Quo), unlike Dafny's Euclidean `/`. */
  function TruncQuo(x: int, y: int): (q: int)
    requires y > 0
    ensures x >= 0 ==> 0 <= q && q * y <= x < (q + 1) * y
    ensures x < 0 ==> q <= 0 && (q - 1) * y < x <= q * y
  {
    if x >= 0 then
      QuotientBounds(x, y, x / y);
      x / y
    else
      NegatedQuotientBounds(x, y, -((-x) / y));
      -((-x) / y)
  }

  /** Euclidean division of a non-negative a by a positive y brackets a between q * y and (q + 1) * y. */
  lemma QuotientBounds(a: int, y: int, q: int)
    requires a >= 0 && y > 0 && q == a / y
    ensures 0 <= q && q * y <= a < (q + 1) * y
  {
    var r := a % y;
    assert a == y * q + r && 0 <= r < y;
    assert y * q == q * y;
    assert (q + 1) * y == q * y + y;
  }

  /** The same brackets, mirrored, for the quotient of a negative x rounded toward zero. */
  lemma NegatedQuotientBounds(x: int, y: int, q: int)
    requires x < 0 && y > 0 && q == -((-x) / y)
    ensures q <= 0 && (q - 1) * y < x <= q * y
  {
    var p := -q;
    QuotientBounds(-x, y, p);
    assert q * y == -(p * y);
    assert (q - 1) * y == -((p + 1) * y);
  }

  /** The integer nearest to x in the direction of zero. */
  function TruncReal(x: real): int {
    if x >= 0.0 then x.Floor else -((-x).Floor)
  }

  lemma TruncOfInt(n: int)
    ensures TruncReal(n as real) == n
  {
  }

  /** For w >= 0, the floor of w / 10 is the floor of w divided by ten. */
  lemma FloorTenth(w: real)
    requires w >= 0.0
    ensures (w / 10.0).Floor == w.Floor / 10
  {
    var n := w.Floor;
    var q, r := n / 10, n % 10;
    var f := w - n as real;
    assert n == 10 * q + r && 0 <= r < 10;
    assert 0.0 <= f < 1.0;
    assert w / 10.0 == q as real + (r as real + f) / 10.0;
  }

  /** Truncating w / 10 is truncating w and then dividing by ten toward zero. */
  lemma TruncTenth(w: real)
    ensures TruncReal(w / 10.0) == TruncQuo(TruncReal(w), 10)
  {
    FloorTenth(if w >= 0.0 then w else -w);
    if w < 0.0 {
      assert -(w / 10.0) == (-w) / 10.0;
    }
  }

  /** For a natural x, dividing by P and then by ten is dividing by 10P. */
  lemma NatDivNested(x: nat, P: nat)
    requires P > 0
    ensures (x / P) / 10 == x / (10 * P)
  {
    var q, r := x / P, x % P;
    var q2, r2 := q / 10, q % 10;
    assert x == q * P + r && 0 <= r < P;
    assert q == 10 * q2 + r2 && 0 <= r2 < 10;
    assert q * P == (10 * q2) * P + r2 * P;
    assert (10 * q2) * P == q2 * (10 * P);
    assert r2 * P <= 9 * P;
    var rest := r2 * P + r;
    assert x == q2 * (10 * P) + rest && 0 <= rest < 10 * P;
    DivUnique(x, 10 * P, q2, rest);
  }

  lemma DivUnique(x: int, d: int, q: int, r: int)
    requires d > 0 && x == q * d + r && 0 <= r < d
    ensures x / d == q
  {
    var q0, r0 := x / d, x % d;
    assert x == q0 * d + r0 && 0 <= r0 < d;
    MulSub(q, q0, d);
    if q > q0 {
      MulAtLeast(q - q0, d);
    } else if q < q0 {
      MulSub(q0, q, d);
      MulAtLeast(q0 - q, d);
    }
  }

  lemma MulSub(a: int, b: int, d: int)
    ensures (a - b) * d == a * d - b * d
  {
  }

  lemma MulAtLeast(m: int, d: int)
    requires m >= 1 && d > 0
    ensures m * d >= d
  {
  }

  /** Truncating division by P and then by ten is truncating division by 10P. */
  lemma TruncQuoNested(x: int, P: nat)
    requires P > 0
    ensures TruncQuo(TruncQuo(x, P), 10) == TruncQuo(x, 10 * P)
  {
    if x >= 0 {
      NatDivNested(x, P);
    } else {
      NatDivNested(-x, P);
    }
  }

  /** Shifting an integer down by k places and truncating is truncating division by 10^k. */
  lemma {:induction false} TruncShift(x: int, k: nat)
    ensures TruncReal(Shift(x as real, -(k as int))) == TruncQuo(x, Pow10(k))
  {
    if k == 0 {
      TruncOfInt(x);
    } else {
      var w := Shift(x as real, -(k as int) + 1);
      assert Shift(x as real, -(k as int)) == w / 10.0;
      TruncShift(x, k - 1);
      TruncTenth(w);
      TruncQuoNested(x, Pow10(k - 1));
    }
  }

  /**
   Truncate(precision) for precision >= 0: a decimal with more than precision
   fractional digits is rewritten at exponent -precision, dropping the extra
   digits toward zero; any other decimal is returned as it is.
   */
  function Truncate(d: Decimal, precision: nat): (r: Decimal)
    ensures r.exp >= -(precision as int)
    ensures d.exp >= -(precision as int) ==> r == d
    ensures d.exp < -(precision as int) ==> r.exp == -(precision as int)
  {
    if -(precision as int) > d.exp then Decimal(TruncQuo(d.coef, Pow10(-(precision as int) - d.exp)), -(precision as int))
    else d
  }

  /**
   Truncating at p places leaves the value whose p-place shift is the integer
   part of the exact value shifted by p places: truncation toward zero, never
   rounding.
   */
  lemma TruncateValue(d: Decimal, p: nat)
    ensures Shift(Value(Truncate(d, p)), p) == TruncReal(Shift(Value(d), p)) as real
  {
    ShiftAdd(d.coef as real, d.exp, p);
    if d.exp >= -(p as int) {
      var j: nat := d.exp + p;
      ShiftInt(d.coef, j);
      TruncOfInt(MulPow10(d.coef, j));
    } else {
      var k: nat := -(p as int) - d.exp;
      var t := Truncate(d, p);
      ShiftAdd(t.coef as real, t.exp, p);
      TruncShift(d.coef, k);
    }
  }

  /** Truncated equality at p places is equality of the integer parts of the exact values shifted by p places. */
  lemma TruncatedEqualityAt(a: Decimal, b: Decimal, p: nat)
    ensures Equal(Truncate(a, p), Truncate(b, p)) <==>
      TruncReal(Shift(Value(a), p)) == TruncReal(Shift(Value(b), p))
  {
    TruncateValue(a, p);
    TruncateValue(b, p);
    ShiftOrder(Value(Truncate(a, p)), Value(Truncate(b, p)), p);
  }

  // ---------------------------------------------------------------------------
  // Equivalence

  /**
   The number of fractional digits of d as written: -min(0, exp). It is the
   fewest places at which truncation leaves d as it is.
   */
  function Places(d: Decimal): (r: nat)
    ensures Truncate(d, r) == d
    ensures r > 0 ==> Truncate(d, r - 1) != d
  {
    if d.exp < 0 then -d.exp else 0
  }

  /** The smaller of the two operands' fractional digit counts. */
  function CommonPlaces(a: Decimal, b: Decimal): nat {
    if Places(a) < Places(b) then Places(a) else Places(b)
  }

  /**
   Equivalent: both operands truncated to the smaller number of fractional
   digits, then compared with Equal. That is, the exact values shifted by that
   many places have the same integer part; so Equal decimals are equivalent.
   */
  function Equivalent(a: Decimal, b: Decimal): (r: bool)
    ensures r <==> TruncReal(Shift(Value(a), CommonPlaces(a, b))) == TruncReal(Shift(Value(b), CommonPlaces(a, b)))
    ensures Equal(a, b) ==> r
  {
    var p := CommonPlaces(a, b);
    TruncatedEqualityAt(a, b, p);
    Equal(Truncate(a, p), Truncate(b, p))
  }

  /** Equivalent is reflexive and symmetric. */
  lemma EquivalentReflexiveSymmetric(a: Decimal, b: Decimal)
    ensures Equivalent(a, a)
    ensures Equivalent(a, b) == Equivalent(b, a)
  {
  }

  /** 1.0 ~ 1.00, but not 1.05 ~ 1.1 (truncation, not rounding). */
  lemma EquivalentExamples()
    ensures Equivalent(Decimal(10, -1), Decimal(100, -2))
    ensures !Equivalent(Decimal(105, -2), Decimal(11, -1))
  {
  }

  /** Equivalence is not transitive: 1.11 ~ 1.1 and 1.1 ~ 1.19, but not 1.11 ~ 1.19. */
  lemma EquivalentNotTransitive()
    ensures Equivalent(Decimal(111, -2), Decimal(11, -1))
    ensures Equivalent(Decimal(11, -1), Decimal(119, -2))
    ensures !Equivalent(Decimal(111, -2), Decimal(119, -2))
  {
  }

  /** A decimal whose exponent fits the int32 the library keeps it in. */
  predicate HasInt32Exponent(d: Decimal) {
    MinInt32 <= d.exp <= MaxInt32
  }

  /**
   The clamped precision as the source computes it: -min(0, exp) in int32
   arithmetic, so the negation of the least exponent wraps back to it.
   */
  function PlacesAsWritten(d: Decimal): Int32
    requires HasInt32Exponent(d)
  {
    Wrap32(if d.exp < 0 then -d.exp else 0)
  }

  /**
   Equivalent as the source computes it: the smaller of the two int32
   precisions goes to the library's Truncate, whose guard leaves a decimal
   as it is when the precision is negative.
   */
  function EquivalentAsWritten(a: Decimal, b: Decimal): bool
    requires HasInt32Exponent(a) && HasInt32Exponent(b)
  {
    var l := PlacesAsWritten(a);
    var r := PlacesAsWritten(b);
    var p := if l < r then l else r;
    if p >= 0 then Equal(Truncate(a, p), Truncate(b, p)) else Equal(a, b)
  }

  /** Away from the least int32 exponent, the computation as written is Equivalent. */
  lemma EquivalentAsWrittenAgrees(a: Decimal, b: Decimal)
    requires HasInt32Exponent(a) && HasInt32Exponent(b)
    requires a.exp != MinInt32 && b.exp != MinInt32
    ensures EquivalentAsWritten(a, b) == Equivalent(a, b)
  {
    assert PlacesAsWritten(a) == Places(a) && PlacesAsWritten(b) == Places(b);
  }

  /**
   At the least int32 exponent the precision wraps negative, truncation is
   skipped, and the computation as written falls back to Equal.
   */
  lemma EquivalentAsWrittenAtLeastExponent(a: Decimal, b: Decimal)
    requires a.exp == MinInt32 && HasInt32Exponent(b)
    ensures EquivalentAsWritten(a, b) == Equal(a, b)
  {
    assert PlacesAsWritten(a) == MinInt32;
  }

  /**
   1E-2147483648 agrees with 0 to the zero places that 0 has, so it is
   Equivalent to 0; as written it is compared with Equal and is not.
   */
  lemma LeastExponentCounterexample(a: Decimal)
    requires a.coef == 1 && a.exp == MinInt32
    ensures !EquivalentAsWritten(a, Zero)
    ensures Equivalent(a, Zero)
  {
    EquivalentAsWrittenAtLeastExponent(a, Zero);
    ShiftSign(1.0, a.exp);
    var k: nat := -a.exp;
    assert Pow10(k) >= 10;
    assert Truncate(a, 0) == Decimal(0, 0);
  }

  // ---------------------------------------------------------------------------
  // Conversions to the integer types

  /** IntPart: the decimal rewritten at exponent 0, its digits after the point dropped toward zero. */
  function IntPart(d: Decimal): (r: int)
    ensures r == TruncReal(Value(d))
  {
    if d.exp >= 0 then
      ShiftInt(d.coef, d.exp);
      TruncOfInt(MulPow10(d.coef, d.exp));
      MulPow10(d.coef, d.exp)
    else
      TruncShift(d.coef, -d.exp);
      TruncQuo(d.coef, Pow10(-d.exp))
  }

  /** Integer64: the integer part, narrowed to int64 by keeping its low 64 bits. */
  function ToInteger64(d: Decimal): (r: Int64)
    ensures MinInt64 <= TruncReal(Value(d)) <= MaxInt64 ==> r == TruncReal(Value(d))
    ensures (TruncReal(Value(d)) - r) % Two64 == 0
  {
    Wrap64(IntPart(d))
  }

  /** Integer: the int64 integer part further narrowed to int32, which is the integer part's low 32 bits. */
  function ToInteger(d: Decimal): (r: Int32)
    ensures MinInt32 <= TruncReal(Value(d)) <= MaxInt32 ==> r == TruncReal(Value(d))
    ensures (TruncReal(Value(d)) - r) % Two32 == 0
  {
    Wrap32OfWrap64(IntPart(d));
    Wrap32(ToInteger64(d))
  }

  /** Conversion truncates toward zero: -1.5 gives -1, 2.5 gives 2, 3E2 gives 300. */
  lemma ToIntegerExamples()
    ensures ToInteger64(Decimal(-15, -1)) == -1
    ensures ToInteger(Decimal(-19, -1)) == -1
    ensures ToInteger(Decimal(25, -1)) == 2
    ensures ToInteger64(Decimal(3, 2)) == 300
  {
  }

  // ---------------------------------------------------------------------------
  // Parsing and unmarshalling

  /** ParseDecimal over the library parser `lib`; a rejected text becomes a ParseError. */
  function Parse(lib: string -> Option<Decimal>, s: string): (r: Result<Decimal, ParseError>)
    ensures r.Ok? <==> lib(s).Some?
    ensures r.Ok? ==> Some(r.value) == lib(s)
    ensures r.Err? ==> r.error == ParseError(TypeName, s)
  {
    match lib(s)
    case Some(d) => Ok(d)
    case None => Err(ParseError(TypeName, s))
  }

  /** UnmarshalJSON: on failure the receiver keeps its old value. */
  function UnmarshalJSON(lib: string -> Option<Decimal>, receiver: Decimal, data: string): (r: Unmarshalled<Decimal>)
    ensures r.error.Some? <==> lib(data).None?
    ensures r.error.Some? ==> r.receiver == receiver
    ensures r.error.None? ==> Some(r.receiver) == lib(data)
  {
    match Parse(lib, data)
    case Ok(d) => Unmarshalled(d, None)
    case Err(e) => Unmarshalled(receiver, Some(e))
  }

  /** UnmarshalText: the receiver always takes ParseDecimal's value, which is zero on failure. */
  function UnmarshalText(lib: string -> Option<Decimal>, receiver: Decimal, data: string): (r: Unmarshalled<Decimal>)
    ensures r.error.Some? <==> lib(data).None?
    ensures r.error.Some? ==> r.receiver == Zero
    ensures r.error.None? ==> Some(r.receiver) == lib(data)
  {
    match Parse(lib, data)
    case Ok(d) => Unmarshalled(d, None)
    case Err(e) => Unmarshalled(Zero, Some(e))
  }

  /** The two unmarshallers agree on success and differ on failure exactly when the receiver was not zero. */
  lemma UnmarshalJSONAndTextDiffer(lib: string -> Option<Decimal>, receiver: Decimal, data: string)
    ensures UnmarshalJSON(lib, receiver, data).error == UnmarshalText(lib, receiver, data).error
    ensures UnmarshalJSON(lib, receiver, data) == UnmarshalText(lib, receiver, data) <==> lib(data).Some? || receiver == Zero
  {
  }
}

=== FILE: errors.dfy ===
/**
 The error values of the system types. Go's `ParseError` records the system
 type that failed to parse (by its Go type name) and the rejected input; the
 wrapped reason from package strconv or the decimal library is not modelled.
 */
module Errors {
  import opened Results

  datatype ParseError = ParseError(typeName: string, input: string)

  /**
   The observable effect of an `UnmarshalJSON` / `UnmarshalText` call on a
   pointer receiver: the receiver's value after the call, and the error the
   call returned (None for nil).
   */
  datatype Unmarshalled<T> = Unmarshalled(receiver: T, error: Option<ParseError>)
}

=== FILE: escapes.dfy ===
/**
 The escape decoder of FHIRPath string literals (internal/esc).

 The source decodes the text between the quotes of a literal in three steps:
 a `strings.Replacer` rewrites the eight FHIRPath escapes to `\u00XX` escapes
 (left to right, without overlap), every remaining double quote is rewritten
 to the escape `\u0022`, and the result, wrapped in double quotes, goes through
 `strconv.Unquote`. `Decode` is the same decoder written as one left-to-right
 scan; `ParseAsWritten` is the three-step pipeline, and `DecodeMatchesPipeline`
 proves that the two agree on every input.

 Characters are Unicode scalar values; the UTF-8 bytes of Go strings are not
 modelled.
 */
module Escapes {
  import opened Results

  /** strconv.ErrSyntax: the decoder reports no detail. */
  datatype SyntaxError = SyntaxError

  const FormFeed: char := '\U{000C}'

  // ---------------------------------------------------------------------------
  // Escape letters

  /** The letters that follow a backslash in the eight FHIRPath escapes. */
  predicate IsFhirEscape(c: char) {
    c == '\'' || c == '"' || c == '`' || c == 'r' || c == 'n' || c == 't' || c == 'f' || c == '\\'
  }

  /** The character a FHIRPath escape stands for. */
  function FhirEscapeChar(c: char): char
    requires IsFhirEscape(c)
  {
    if c == 'r' then '\r'
    else if c == 'n' then '\n'
    else if c == 't' then '\t'
    else if c == 'f' then FormFeed
    else c
  }

  /** The `\u00XX` text the replacer substitutes for a FHIRPath escape. */
  function UnicodeEscapeOf(c: char): string
    requires IsFhirEscape(c)
  {
    if c == '\'' then "\\u0027"
    else if c == '"' then "\\u0022"
    else if c == '`' then "\\u0060"
    else if c == 'r' then "\\u000d"
    else if c == 'n' then "\\u000a"
    else if c == 't' then "\\u0009"
    else if c == 'f' then "\\u000c"
    else "\\u005c"
  }

  predicate IsHex(c: char) {
    ('0' <= c <= '9') || ('a' <= c <= 'f') || ('A' <= c <= 'F')
  }

  predicate IsOctal(c: char) {
    '0' <= c <= '7'
  }

  function HexDigitValue(c: char): nat
    requires IsHex(c)
  {
    if '0' <= c <= '9' then (c as int) - ('0' as int)
    else if 'a' <= c <= 'f' then (c as int) - ('a' as int) + 10
    else (c as int) - ('A' as int) + 10
  }

  predicate AllOf(s: string, p: char -> bool) {
    forall i :: 0 <= i < |s| ==> p(s[i])
  }

  /** The number a string of hex digits denotes, most significant first. */
  function HexValue(s: string): nat
    requires AllOf(s, IsHex)
  {
    if |s| == 0 then 0 else 16 * HexValue(s[..|s| - 1]) + HexDigitValue(s[|s| - 1])
  }

  function OctalValue(c: char): nat
    requires IsOctal(c)
  {
    (c as int) - ('0' as int)
  }

  /** The letters of Go's escapes that stand alone: \a \b \f \n \r \t \v \\ and \". */
  predicate IsSimpleGoEscape(c: char) {
    c in "abfnrtv\\\""
  }

  /** The letters of Go's escapes that take hex digits: \x, \u and \U. */
  predicate IsHexEscape(c: char) {
    c == 'x' || c == 'u' || c == 'U'
  }

  /** How many hex digits a hex escape takes. */
  function HexWidth(c: char): nat
    requires IsHexEscape(c)
  {
    if c == 'x' then 2 else if c == 'u' then 4 else 8
  }

  /** The characters that may follow a backslash in a Go double-quoted literal. */
  predicate IsGoEscape(c: char) {
    IsSimpleGoEscape(c) || IsHexEscape(c) || IsOctal(c)
  }

  /** Go's utf8.ValidRune: a code point that is not a surrogate. */
  predicate IsScalar(v: int) {
    (0 <= v < 0xD800) || (0xE000 <= v < 0x11_0000)
  }

  /**
   The escape handling of strconv.UnquoteChar inside a double-quoted literal:
   the character that a backslash followed by c and then rest stands for, and
   how many characters of rest it consumes; None for a syntax error.
   \xNN and octal \NNN give the character with that number.
   */
  function GoEscape(c: char, rest: string): (r: Option<(char, nat)>)
    ensures r.Some? ==> r.value.1 <= |rest|
  {
    if c == 'a' then Some(('\U{0007}', 0))
    else if c == 'b' then Some(('\U{0008}', 0))
    else if c == 'f' then Some((FormFeed, 0))
    else if c == 'n' then Some(('\n', 0))
    else if c == 'r' then Some(('\r', 0))
    else if c == 't' then Some(('\t', 0))
    else if c == 'v' then Some(('\U{000B}', 0))
    else if IsHexEscape(c) then
      var n := HexWidth(c);
      if |rest| < n || !AllOf(rest[..n], IsHex) then None
      else
        var v := HexValue(rest[..n]);
        if IsScalar(v) then Some((v as char, n)) else None
    else if IsOctal(c) then
      if |rest| < 2 || !AllOf(rest[..2], IsOctal) then None
      else
        var v := 64 * OctalValue(c) + 8 * OctalValue(rest[0]) + OctalValue(rest[1]);
        if v > 255 then None else Some((v as char, 2))
    else if c == '\\' then Some(('\\', 0))
    else if c == '"' then Some(('"', 0))
    else None
  }

  /**
   The cases of GoEscape: a character outside Go's escapes is rejected, the
   single-letter escapes consume nothing, `\x`, `\u` and `\U` succeed exactly
   when 2, 4 or 8 hex digits follow and denote a code point, which is then the
   character, and every escape consumes only digits that follow it.
   */
  lemma GoEscapeCases(c: char, rest: string)
    ensures GoEscape(c, rest).Some? ==> AllOf(rest[..GoEscape(c, rest).value.1], IsHex)
    ensures IsSimpleGoEscape(c) ==> GoEscape(c, rest).Some? && GoEscape(c, rest).value.1 == 0
    ensures !IsGoEscape(c) ==> GoEscape(c, rest).None?
    ensures IsHexEscape(c) ==> (GoEscape(c, rest).Some? <==> |rest| >= HexWidth(c) && AllOf(rest[..HexWidth(c)], IsHex) && IsScalar(HexValue(rest[..HexWidth(c)])))
    ensures IsHexEscape(c) && GoEscape(c, rest).Some? ==> GoEscape(c, rest).value.1 == HexWidth(c) && GoEscape(c, rest).value.0 as int == HexValue(rest[..HexWidth(c)])
  {
  }

  // ---------------------------------------------------------------------------
  // The decoder as one scan

  function Prepend(c: char, r: Result<string, SyntaxError>): Result<string, SyntaxError> {
    match r
    case Ok(t) => Ok([c] + t)
    case Err(e) => Err(e)
  }

  /** No character of s is c. */
  predicate Lacks(s: string, c: char) {
    forall i :: 0 <= i < |s| ==> s[i] != c
  }

  predicate Plain(s: string) {
    forall i :: 0 <= i < |s| ==> s[i] != '\\' && s[i] != '\n'
  }

  /**
   esc.Parse: the text between the quotes of a FHIRPath string literal,
   decoded left to right. A raw newline, a dangling backslash or a backslash
   that starts no valid escape is a syntax error.
   */
  function Decode(s: string): (r: Result<string, SyntaxError>)
    ensures r.Ok? ==> |r.value| <= |s|
    ensures Plain(s) ==> r == Ok(s)
    decreases |s|
  {
    if |s| == 0 then Ok([])
    else if s[0] == '\n' then Err(SyntaxError)
    else if s[0] != '\\' then
      var r := Prepend(s[0], Decode(s[1..]));
      assert Plain(s) ==> Plain(s[1..]) && [s[0]] + s[1..] == s;
      r
    else if |s| == 1 then Err(SyntaxError)
    else if IsFhirEscape(s[1]) then Prepend(FhirEscapeChar(s[1]), Decode(s[2..]))
    else
      match GoEscape(s[1], s[2..])
      case None => Err(SyntaxError)
      case Some((ch, k)) => Prepend(ch, Decode(s[2 + k..]))
  }

  /** One step of the scan over a character that is neither a backslash nor a newline. */
  lemma DecodePlainStep(c: char, rest: string)
    requires c != '\\' && c != '\n'
    ensures Decode([c] + rest) == Prepend(c, Decode(rest))
  {
    assert ([c] + rest)[1..] == rest;
  }

  /** One step of the scan over a FHIRPath escape. */
  lemma DecodeFhirStep(c: char, rest: string)
    requires IsFhirEscape(c)
    ensures Decode(['\\', c] + rest) == Prepend(FhirEscapeChar(c), Decode(rest))
  {
    assert (['\\', c] + rest)[2..] == rest;
  }

  /** Each of the eight FHIRPath escapes decodes to its single character. */
  lemma FhirEscapeDecodes(c: char)
    requires IsFhirEscape(c)
    ensures Decode(['\\', c]) == Ok([FhirEscapeChar(c)])
  {
    DecodeFhirStep(c, []);
    assert ['\\', c] + [] == ['\\', c];
    assert Decode([]) == Ok([]);
    assert [FhirEscapeChar(c)] + [] == [FhirEscapeChar(c)];
  }

  /** The eight escapes as written in a literal, with the characters they denote. */
  lemma FhirEscapeTable()
    ensures FhirEscapeChar('\'') == '\'' && FhirEscapeChar('"') == '"' && FhirEscapeChar('`') == '`'
    ensures FhirEscapeChar('r') == '\r' && FhirEscapeChar('n') == '\n' && FhirEscapeChar('t') == '\t'
    ensures FhirEscapeChar('f') == '\U{000C}' && FhirEscapeChar('\\') == '\\'
  {
  }

  /**
   An escaped backslash is consumed whole, so a following letter stays
   literal: `\\n` is a backslash then n, and `\\\\` two backslashes.
   */
  lemma EscapedBackslashThenLetter(c: char)
    requires c != '\\' && c != '\n'
    ensures Decode(['\\', '\\', c]) == Ok(['\\', c])
  {
    DecodePlainStep(c, []);
    assert [c] + [] == [c];
    assert Decode([]) == Ok([]);
    assert Decode([c]) == Ok([c]);
    DecodeFhirStep('\\', [c]);
    assert ['\\'] + [c] == ['\\', c];
    assert ['\\', '\\'] + [c] == ['\\', '\\', c];
  }

  lemma TwoEscapedBackslashes()
    ensures Decode(['\\', '\\', '\\', '\\']) == Ok(['\\', '\\'])
  {
    FhirEscapeDecodes('\\');
    DecodeFhirStep('\\', ['\\', '\\']);
    assert ['\\'] + ['\\'] == ['\\', '\\'];
    assert ['\\', '\\'] + ['\\', '\\'] == ['\\', '\\', '\\', '\\'];
  }

  /** A bare double quote is kept. */
  lemma BareQuoteKept()
    ensures Decode("\"") == Ok("\"")
    ensures Decode("a\"b") == Ok("a\"b")
  {
  }

  lemma HexValue4(s: string)
    requires |s| == 4 && AllOf(s, IsHex)
    ensures HexValue(s) == 4096 * HexDigitValue(s[0]) + 256 * HexDigitValue(s[1]) + 16 * HexDigitValue(s[2]) + HexDigitValue(s[3])
  {
    var a, b, c, d := HexDigitValue(s[0]), HexDigitValue(s[1]), HexDigitValue(s[2]), HexDigitValue(s[3]);
    assert s[..3][..2] == s[..2] && s[..2][..1] == s[..1] && s[..1][..0] == [];
    assert HexValue(s[..1]) == a;
    assert HexValue(s[..2]) == 16 * a + b;
    assert HexValue(s[..3]) == 16 * (16 * a + b) + c;
    assert HexValue(s) == 16 * (16 * (16 * a + b) + c) + d;
  }

  /** `\u` and four hex digits give that code point, and the scan goes on after them. */
  lemma UnicodeEscapeDecodes(h: string, rest: string)
    requires |h| == 4 && AllOf(h, IsHex) && IsScalar(HexValue(h))
    ensures Decode("\\u" + h + rest) == Prepend(HexValue(h) as char, Decode(rest))
  {
    var s := "\\u" + h + rest;
    assert s[0] == '\\' && s[1] == 'u';
    assert s[2..] == h + rest;
    assert (h + rest)[..4] == h;
    assert s[6..] == rest;
  }

  /** For example, `\u044d` decodes to U+044D. */
  lemma UnicodeEscapeExample()
    ensures Decode("\\u044d") == Ok("\U{044d}")
  {
    var h := "044d";
    HexValue4(h);
    UnicodeEscapeDecodes(h, []);
    assert "\\u" + h + [] == "\\u044d";
    assert Decode([]) == Ok([]);
    assert ['\U{044d}'] + [] == "\U{044d}";
  }

  /** A backslash with nothing after it is a syntax error, even after other text. */
  lemma DanglingBackslashFails(prefix: string)
    requires Plain(prefix)
    ensures Decode(prefix + "\\") == Err(SyntaxError)
    decreases |prefix|
  {
    if |prefix| > 0 {
      assert (prefix + "\\")[1..] == prefix[1..] + "\\";
      DanglingBackslashFails(prefix[1..]);
    }
  }

  /** A backslash before a character that starts no escape, FHIRPath's or Go's, is a syntax error. */
  lemma UnknownEscapeFails(c: char, rest: string)
    requires !IsFhirEscape(c) && !IsGoEscape(c)
    ensures Decode(['\\', c] + rest) == Err(SyntaxError)
  {
    assert (['\\', c] + rest)[1] == c;
  }

  /** `\u` followed by fewer than four hex digits is a syntax error. */
  lemma ShortUnicodeEscapeFails(rest: string)
    requires |rest| < 4 || !AllOf(rest[..4], IsHex)
    ensures Decode("\\u" + rest) == Err(SyntaxError)
  {
    var s := "\\u" + rest;
    assert s[0] == '\\' && s[1] == 'u' && s[2..] == rest;
  }

  /** `\u` of a surrogate code point is a syntax error. */
  lemma SurrogateEscapeFails(h: string, rest: string)
    requires |h| == 4 && AllOf(h, IsHex) && 0xD800 <= HexValue(h) < 0xE000
    ensures Decode("\\u" + h + rest) == Err(SyntaxError)
  {
    var s := "\\u" + h + rest;
    assert s[0] == '\\' && s[1] == 'u';
    assert s[2..] == h + rest;
    assert (h + rest)[..4] == h;
  }

  /** The unknown, short and surrogate escapes of the Go package's tests. */
  lemma BadEscapeExamples()
    ensures Decode("\\q") == Err(SyntaxError) && Decode("\\z") == Err(SyntaxError)
    ensures Decode("\\u12") == Err(SyntaxError)
    ensures Decode("\\ud800") == Err(SyntaxError)
  {
    var h := "d800";
    HexValue4(h);
    SurrogateEscapeFails(h, []);
    assert "\\u" + h + [] == "\\ud800";
  }

  /** A raw newline is a syntax error. */
  lemma RawNewlineFails(prefix: string, rest: string)
    requires Plain(prefix)
    ensures Decode(prefix + ['\n'] + rest) == Err(SyntaxError)
    decreases |prefix|
  {
    if |prefix| > 0 {
      assert (prefix + ['\n'] + rest)[1..] == prefix[1..] + ['\n'] + rest;
      RawNewlineFails(prefix[1..], rest);
    }
  }

  // ---------------------------------------------------------------------------
  // The three-step pipeline of esc.go, as written

  /** The strings.Replacer of esc.go: each FHIRPath escape becomes its `\u00XX` form, scanning left to right without overlap. */
  function ReplaceEscapes(s: string): (r: string)
    ensures |r| >= |s|
    decreases |s|
  {
    if |s| == 0 then []
    else if s[0] == '\\' && |s| >= 2 && IsFhirEscape(s[1]) then UnicodeEscapeOf(s[1]) + ReplaceEscapes(s[2..])
    else [s[0]] + ReplaceEscapes(s[1..])
  }

  /** The replacer leaves text without a backslash as it is. */
  lemma {:induction false} ReplaceEscapesNoBackslash(s: string)
    requires Lacks(s, '\\')
    ensures ReplaceEscapes(s) == s
    decreases |s|
  {
    if |s| > 0 {
      ReplaceEscapesNoBackslash(s[1..]);
      assert [s[0]] + s[1..] == s;
    }
  }

  /** strings.ReplaceAll(s, `"`, `\u0022`): every double quote becomes an escape. */
  function RequoteQuotes(s: string): (r: string)
    ensures |r| >= |s|
  {
    if |s| == 0 then []
    else (if s[0] == '"' then "\\u0022" else [s[0]]) + RequoteQuotes(s[1..])
  }

  /** After the re-escape no bare double quote is left for Unquote to stop at. */
  lemma {:induction false} RequoteLeavesNoQuote(s: string)
    ensures Lacks(RequoteQuotes(s), '"')
  {
    if |s| > 0 {
      RequoteLeavesNoQuote(s[1..]);
      var head := if s[0] == '"' then "\\u0022" else [s[0]];
      assert RequoteQuotes(s) == head + RequoteQuotes(s[1..]);
      assert Lacks(head, '"');
    }
  }

  /** strconv.UnquoteChar(t, '"'): the next character of a double-quoted literal and the remaining text. */
  function UnquoteChar(t: string): (r: Option<(char, string)>)
    ensures r.Some? ==> |r.value.1| < |t|
  {
    if |t| == 0 || t[0] == '"' then None
    else if t[0] != '\\' then Some((t[0], t[1..]))
    else if |t| == 1 then None
    else
      match GoEscape(t[1], t[2..])
      case None => None
      case Some((ch, k)) => Some((ch, t[2 + k..]))
  }

  /**
   The loop of strconv.Unquote over a double-quoted literal: decodes up to the
   first unescaped double quote and returns the decoded text together with the
   input from that quote on; an unescaped newline is a syntax error.
   */
  function UnquoteBody(t: string): Result<(string, string), SyntaxError>
    decreases |t|
  {
    if |t| == 0 || t[0] == '"' then Ok(([], t))
    else
      match UnquoteChar(t)
      case None => Err(SyntaxError)
      case Some((ch, rest)) =>
        if t[0] == '\n' then Err(SyntaxError)
        else
          match UnquoteBody(rest)
          case Err(e) => Err(e)
          case Ok((out, rem)) => Ok(([ch] + out, rem))
  }

  /**
   The loop stops at the end of its input or at an unescaped double quote,
   leaves a suffix of its input, and writes no more characters than it reads.
   */
  lemma {:induction false} UnquoteBodyStops(t: string)
    ensures UnquoteBody(t).Ok? ==> |UnquoteBody(t).value.0| + |UnquoteBody(t).value.1| <= |t|
    ensures UnquoteBody(t).Ok? ==> UnquoteBody(t).value.1 == t[|t| - |UnquoteBody(t).value.1|..]
    ensures UnquoteBody(t).Ok? ==> |UnquoteBody(t).value.1| == 0 || UnquoteBody(t).value.1[0] == '"'
    decreases |t|
  {
    if |t| > 0 && t[0] != '"' && t[0] != '\n' {
      match UnquoteChar(t)
      case None =>
      case Some((ch, rest)) =>
        UnquoteCharSuffix(t);
        UnquoteBodyStops(rest);
    }
  }

  /** What UnquoteChar leaves is a suffix of its input. */
  lemma UnquoteCharSuffix(t: string)
    ensures UnquoteChar(t).Some? ==> UnquoteChar(t).value.1 == t[|t| - |UnquoteChar(t).value.1|..]
  {
  }

  /** What strconv.Unquote reports once the loop has stopped: the closing quote must end the input. */
  function Finish(r: Result<(string, string), SyntaxError>): (f: Result<string, SyntaxError>)
    ensures f.Ok? <==> r.Ok? && r.value.1 == "\""
    ensures f.Ok? ==> f.value == r.value.0
    ensures f.Err? && r.Err? ==> f.error == r.error
  {
    match r
    case Err(e) => Err(e)
    case Ok((out, rem)) => if rem == "\"" then Ok(out) else Err(SyntaxError)
  }

  /** strconv.Unquote for the double-quoted form, the only form esc.go builds. */
  function Unquote(q: string): (r: Result<string, SyntaxError>)
    ensures r.Ok? ==> |q| >= 2 && q[0] == '"' && q[|q| - 1] == '"'
    ensures r.Ok? ==> |r.value| <= |q| - 2
  {
    if |q| < 2 || q[0] != '"' then Err(SyntaxError)
    else
      UnquoteBodyStops(q[1..]);
      Finish(UnquoteBody(q[1..]))
  }

  /** esc.Parse exactly as the source composes it. */
  function ParseAsWritten(s: string): Result<string, SyntaxError> {
    Unquote("\"" + RequoteQuotes(ReplaceEscapes(s)) + "\"")
  }

  // ---------------------------------------------------------------------------
  // The scan agrees with the pipeline

  /** The text the pipeline hands to the Unquote loop for s, closing quote included. */
  function Quoted(s: string): string {
    RequoteQuotes(ReplaceEscapes(s)) + "\""
  }

  lemma {:induction false} RequoteConcat(a: string, b: string)
    ensures RequoteQuotes(a + b) == RequoteQuotes(a) + RequoteQuotes(b)
    decreases |a|
  {
    if |a| == 0 {
      assert a + b == b;
    } else {
      assert (a + b)[1..] == a[1..] + b;
      RequoteConcat(a[1..], b);
    }
  }

  lemma {:induction false} RequoteNoQuote(a: string)
    requires forall i :: 0 <= i < |a| ==> a[i] != '"'
    ensures RequoteQuotes(a) == a
    decreases |a|
  {
    if |a| > 0 {
      RequoteNoQuote(a[1..]);
    }
  }

  /** A character other than a backslash or a double quote passes through both rewrites. */
  lemma QuotedCons(c: char, w: string)
    requires c != '\\' && c != '"'
    ensures Quoted([c] + w) == [c] + Quoted(w)
  {
    assert ([c] + w)[1..] == w;
    assert ReplaceEscapes([c] + w) == [c] + ReplaceEscapes(w);
    RequoteConcat([c], ReplaceEscapes(w));
  }

  /** A bare double quote becomes `\u0022`. */
  lemma QuotedQuoteHead(w: string)
    ensures Quoted(['"'] + w) == UnicodeEscapeOf('"') + Quoted(w)
  {
    assert (['"'] + w)[1..] == w;
    assert ReplaceEscapes(['"'] + w) == ['"'] + ReplaceEscapes(w);
    RequoteConcat(['"'], ReplaceEscapes(w));
  }

  /** A FHIRPath escape becomes its `\u00XX` form. */
  lemma QuotedFhirEscapeHead(s: string)
    requires |s| >= 2 && s[0] == '\\' && IsFhirEscape(s[1])
    ensures Quoted(s) == UnicodeEscapeOf(s[1]) + Quoted(s[2..])
  {
    RequoteConcat(UnicodeEscapeOf(s[1]), ReplaceEscapes(s[2..]));
    RequoteNoQuote(UnicodeEscapeOf(s[1]));
  }

  /** A backslash before any other character is left for Unquote, with that character. */
  lemma QuotedOtherEscapeHead(s: string)
    requires |s| >= 2 && s[0] == '\\' && !IsFhirEscape(s[1])
    ensures Quoted(s) == ['\\', s[1]] + Quoted(s[2..])
  {
    assert s[1..][1..] == s[2..];
    assert ReplaceEscapes(s[1..]) == [s[1]] + ReplaceEscapes(s[2..]);
    assert ReplaceEscapes(s) == ['\\', s[1]] + ReplaceEscapes(s[2..]);
    RequoteConcat(['\\', s[1]], ReplaceEscapes(s[2..]));
  }

  /** A lone trailing backslash is left as it is. */
  lemma QuotedDangling()
    ensures Quoted("\\") == "\\\""
  {
    assert ReplaceEscapes("\\") == "\\";
  }

  /** The first j characters of w, free of backslashes and quotes, are copied unchanged. */
  lemma {:induction false} QuotedPrefix(w: string, j: nat)
    requires j <= |w|
    requires forall i :: 0 <= i < j ==> w[i] != '\\' && w[i] != '"'
    ensures Quoted(w) == w[..j] + Quoted(w[j..])
    decreases j
  {
    if j > 0 {
      var tail := w[1..];
      assert [w[0]] + tail == w;
      QuotedCons(w[0], tail);
      QuotedPrefix(tail, j - 1);
      assert tail[j - 1..] == w[j..];
      assert w[..j] == [w[0]] + tail[..j - 1];
      calc {
        Quoted(w);
        [w[0]] + Quoted(tail);
        [w[0]] + (tail[..j - 1] + Quoted(w[j..]));
        ([w[0]] + tail[..j - 1]) + Quoted(w[j..]);
      }
    } else {
      assert w[..0] == [] && w[0..] == w;
    }
  }

  /** The rewritten text of a string starting with a backslash or quote starts with a backslash. */
  lemma QuotedBackslashHead(v: string)
    requires |v| >= 1 && (v[0] == '\\' || v[0] == '"')
    ensures Quoted(v)[0] == '\\'
  {
    if v[0] == '"' {
      assert ['"'] + v[1..] == v;
      QuotedQuoteHead(v[1..]);
    } else if |v| >= 2 && IsFhirEscape(v[1]) {
      QuotedFhirEscapeHead(v);
    } else if |v| >= 2 {
      QuotedOtherEscapeHead(v);
    } else {
      assert v == "\\";
      QuotedDangling();
    }
  }

  /** Where the first non-digit sits, the rewritten text holds a non-digit too. */
  lemma DigitRunBreaks(w: string, j: nat, p: char -> bool)
    requires !p('\\') && !p('"')
    requires j <= |w|
    requires forall i :: 0 <= i < j ==> p(w[i])
    requires j == |w| || !p(w[j])
    ensures j < |Quoted(w)| && !p(Quoted(w)[j])
  {
    QuotedPrefix(w, j);
    var x := Quoted(w);
    assert x == w[..j] + Quoted(w[j..]);
    if j == |w| {
      assert w[j..] == [];
      assert Quoted(w[j..]) == "\"";
      assert x[j] == '"';
    } else if w[j] == '\\' || w[j] == '"' {
      QuotedBackslashHead(w[j..]);
      assert x[j] == Quoted(w[j..])[0];
    } else {
      assert [w[j]] + w[j + 1..] == w[j..];
      QuotedCons(w[j], w[j + 1..]);
      assert x[j] == Quoted(w[j..])[0];
    }
  }

  /**
   A run of n digits (a digit never being a backslash or a quote) is found at
   the head of the rewritten text exactly when it is at the head of the input,
   and then it is copied unchanged.
   */
  lemma DigitRun(w: string, n: nat, p: char -> bool)
    requires !p('\\') && !p('"')
    ensures (|Quoted(w)| >= n && AllOf(Quoted(w)[..n], p)) <==> (|w| >= n && AllOf(w[..n], p))
    ensures |w| >= n && AllOf(w[..n], p) ==> Quoted(w)[..n] == w[..n] && Quoted(w)[n..] == Quoted(w[n..])
  {
    var x := Quoted(w);
    if |w| >= n && AllOf(w[..n], p) {
      assert forall i :: 0 <= i < n ==> w[i] == w[..n][i];
      QuotedPrefix(w, n);
      assert x[..n] == w[..n];
    } else {
      var k: nat := 0;
      while k < n && k < |w| && p(w[k])
        invariant k <= n && k <= |w|
        invariant forall i :: 0 <= i < k ==> p(w[i])
      {
        k := k + 1;
      }
      assert k < n;
      DigitRunBreaks(w, k, p);
    }
  }

  /** An escape letter outside the FHIRPath eight reads the same characters from the rewritten text as from the input. */
  lemma GoEscapeTransparent(c: char, w: string)
    requires !IsFhirEscape(c)
    ensures GoEscape(c, Quoted(w)).None? <==> GoEscape(c, w).None?
    ensures GoEscape(c, w).Some? ==>
      GoEscape(c, Quoted(w)).value.0 == GoEscape(c, w).value.0 &&
      GoEscape(c, Quoted(w)).value.1 == GoEscape(c, w).value.1 &&
      Quoted(w)[GoEscape(c, w).value.1..] == Quoted(w[GoEscape(c, w).value.1..])
  {
    var x := Quoted(w);
    if IsHexEscape(c) {
      DigitRun(w, HexWidth(c), IsHex);
    } else if IsOctal(c) {
      DigitRun(w, 2, IsOctal);
      if |w| >= 2 && AllOf(w[..2], IsOctal) {
        assert x[0] == x[..2][0] == w[..2][0] == w[0];
        assert x[1] == x[..2][1] == w[..2][1] == w[1];
      }
    } else {
      assert w[0..] == w && x[0..] == x;
    }
  }

  /** The replacer's output for each FHIRPath escape is read back by UnquoteChar as that escape's character. */
  lemma UnicodeEscapeReadsBack(c: char, rest: string)
    requires IsFhirEscape(c)
    ensures UnquoteChar(UnicodeEscapeOf(c) + rest) == Some((FhirEscapeChar(c), rest))
  {
    var t := UnicodeEscapeOf(c) + rest;
    var d := t[2..][..4];
    assert d == UnicodeEscapeOf(c)[2..6];
    assert t[6..] == rest;
    assert t[0] == '\\' && t[1] == 'u';
    assert AllOf(d, IsHex);
    HexValue4(d);
  }

  predicate Agrees(s: string) {
    Finish(UnquoteBody(Quoted(s))) == Decode(s)
  }

  /** Unquote's loop takes one ordinary step. */
  lemma FinishStep(t: string, ch: char, rest: string)
    requires |t| > 0 && t[0] != '"' && t[0] != '\n'
    requires UnquoteChar(t) == Some((ch, rest))
    ensures Finish(UnquoteBody(t)) == Prepend(ch, Finish(UnquoteBody(rest)))
  {
    match UnquoteBody(rest)
    case Err(e) =>
    case Ok((out, rem)) =>
  }

  lemma AgreesPlain(s: string)
    requires |s| > 0 && s[0] != '\\' && s[0] != '"'
    requires s[0] != '\n' ==> Agrees(s[1..])
    ensures Agrees(s)
  {
    assert [s[0]] + s[1..] == s;
    QuotedCons(s[0], s[1..]);
    var x := Quoted(s);
    assert x[1..] == Quoted(s[1..]);
    assert UnquoteChar(x) == Some((s[0], Quoted(s[1..])));
    if s[0] != '\n' {
      FinishStep(x, s[0], Quoted(s[1..]));
    }
  }

  lemma AgreesQuote(s: string)
    requires |s| > 0 && s[0] == '"'
    requires Agrees(s[1..])
    ensures Agrees(s)
  {
    assert ['"'] + s[1..] == s;
    QuotedQuoteHead(s[1..]);
    UnicodeEscapeReadsBack('"', Quoted(s[1..]));
    FinishStep(Quoted(s), '"', Quoted(s[1..]));
  }

  lemma AgreesDangling()
    ensures Agrees("\\")
  {
    QuotedDangling();
    var x := "\\\"";
    assert x[2..] == [];
    assert UnquoteChar(x) == Some(('"', []));
    assert UnquoteBody([]) == Ok(([], []));
    assert UnquoteBody(x) == Ok((['"'] + [], []));
  }

  lemma AgreesFhirEscape(s: string)
    requires |s| >= 2 && s[0] == '\\' && IsFhirEscape(s[1])
    requires Agrees(s[2..])
    ensures Agrees(s)
  {
    QuotedFhirEscapeHead(s);
    UnicodeEscapeReadsBack(s[1], Quoted(s[2..]));
    FinishStep(Quoted(s), FhirEscapeChar(s[1]), Quoted(s[2..]));
  }

  lemma AgreesOtherEscape(s: string)
    requires |s| >= 2 && s[0] == '\\' && !IsFhirEscape(s[1])
    requires GoEscape(s[1], s[2..]).Some? ==> Agrees(s[2 + GoEscape(s[1], s[2..]).value.1..])
    ensures Agrees(s)
  {
    QuotedOtherEscapeHead(s);
    var x := Quoted(s);
    assert x[2..] == Quoted(s[2..]);
    GoEscapeTransparent(s[1], s[2..]);
    var e := GoEscape(s[1], s[2..]);
    UnquoteCharEscape(x, s[1], Quoted(s[2..]));
    if e.Some? {
      var k := e.value.1;
      assert s[2..][k..] == s[2 + k..];
      assert UnquoteChar(x) == Some((e.value.0, Quoted(s[2 + k..])));
      FinishStep(x, e.value.0, Quoted(s[2 + k..]));
    }
  }

  /** UnquoteChar on a backslash and an escape letter outside the FHIRPath eight follows GoEscape. */
  lemma UnquoteCharEscape(x: string, c: char, w: string)
    requires |x| >= 2 && x[0] == '\\' && x[1] == c && x[2..] == w
    ensures GoEscape(c, w).None? ==> UnquoteChar(x).None?
    ensures GoEscape(c, w).Some? ==> UnquoteChar(x) == Some((GoEscape(c, w).value.0, x[2 + GoEscape(c, w).value.1..]))
  {
  }

  /** The loop of Unquote over the rewritten text reaches the same result as the one-pass scan. */
  lemma {:induction false} UnquoteQuotedIsDecode(s: string)
    ensures Agrees(s)
    decreases |s|, 2
  {
    if |s| == 0 {
      assert Quoted(s) == "\"";
    } else if s[0] == '\\' {
      EscapeAgrees(s);
    } else if s[0] == '"' {
      UnquoteQuotedIsDecode(s[1..]);
      AgreesQuote(s);
    } else {
      if s[0] != '\n' {
        UnquoteQuotedIsDecode(s[1..]);
      }
      AgreesPlain(s);
    }
  }

  /** The case of UnquoteQuotedIsDecode where the input starts with a backslash. */
  lemma {:induction false} EscapeAgrees(s: string)
    requires |s| >= 1 && s[0] == '\\'
    ensures Agrees(s)
    decreases |s|, 1
  {
    if |s| == 1 {
      assert s == "\\";
      AgreesDangling();
    } else if IsFhirEscape(s[1]) {
      UnquoteQuotedIsDecode(s[2..]);
      AgreesFhirEscape(s);
    } else {
      GoEscapeAgrees(s);
    }
  }

  /** The case of EscapeAgrees where the escape is one of Go's own. */
  lemma {:induction false} GoEscapeAgrees(s: string)
    requires |s| >= 2 && s[0] == '\\' && !IsFhirEscape(s[1])
    ensures Agrees(s)
    decreases |s|, 0
  {
    var e := GoEscape(s[1], s[2..]);
    if e.Some? {
      var k := e.value.1;
      UnquoteQuotedIsDecode(s[2 + k..]);
    }
    AgreesOtherEscape(s);
  }

  /** The one-pass decoder is exactly the source's replace, re-quote and unquote pipeline. */
  lemma DecodeMatchesPipeline(s: string)
    ensures ParseAsWritten(s) == Decode(s)
  {
    var q := "\"" + RequoteQuotes(ReplaceEscapes(s)) + "\"";
    assert q[1..] == Quoted(s);
    UnquoteQuotedIsDecode(s);
  }

  /** Like the scan, the source's pipeline never lengthens the text and leaves plain text as it is. */
  lemma ParseAsWrittenBounds(s: string)
    ensures ParseAsWritten(s).Ok? ==> |ParseAsWritten(s).value| <= |s|
    ensures Plain(s) ==> ParseAsWritten(s) == Ok(s)
  {
    DecodeMatchesPipeline(s);
  }
}

=== FILE: fhir.dfy ===
/**
 The part of the FHIR R4 element model the system types convert from and to.
 An element carries its primitive value beside an optional id and extensions;
 only the value survives a conversion to a system type.
 */
module Fhir {
  import opened Numerals

  /** The id and extensions any FHIR element may carry beside its value. */
  datatype Extras = Extras(id: string, extensions: nat)

  const NoExtras: Extras := Extras("", 0)

  /**
   A FHIR R4 element value:
   - `Boolean` is `*fhir.Boolean`;
   - `Integer` is any element implementing the `profile.Integer` interface
     (`integer`, `positiveInt`, `unsignedInt`, named by typeName), whose value
     is an int32;
   - `String` is any element implementing `profile.String` (`string`, `code`,
     `id`, `uri`, `markdown`, ...);
   - `Other` is every other element type (`decimal`, `date`, `Quantity`, ...).
   */
  datatype Element =
    | Boolean(boolValue: bool, extras: Extras)
    | Integer(typeName: string, intValue: Int32, extras: Extras)
    | String(typeName: string, stringValue: string, extras: Extras)
    | Other(typeName: string)
}

=== FILE: integers.dfy ===
/**
 System.Integer, a Go `int32`: parsing with strconv, negation and comparison
 in wrapping int32 arithmetic, rendering, and the FHIR R4 conversions.
 */
module Integers {
  import opened Results
  import opened Numerals
  import opened Errors
  import Fhir

  const TypeName: string := "Integer"

  /** The bit size passed to strconv.ParseInt, as the magnitude of the most negative value. */
  const Cutoff: int := 0x8000_0000

  /** ParseInteger: strconv.ParseInt(s, 10, 32); a syntax or range error becomes a ParseError. */
  function Parse(s: string): (r: Result<Int32, ParseError>)
    ensures r.Ok? ==> |s| >= 1
    ensures r.Ok? ==> (r.value < 0 <==> s[0] == '-' && r.value != 0)
    ensures r.Ok? ==> exists sgn, d :: IsSign(sgn) && |d| >= 1 && AllDigits(d) && s == sgn + d && r.value == SignedValue(sgn, d)
    ensures r.Err? ==> r.error == ParseError(TypeName, s)
  {
    match ParseInt(s, Cutoff)
    case Some(v) => Ok(v)
    case None => Err(ParseError(TypeName, s))
  }

  /** Negate: `-i` in int32 arithmetic, where the most negative value is its own negation. */
  function Negate(i: Int32): (r: Int32)
    ensures i != MinInt32 ==> r == -i
    ensures i == MinInt32 ==> r == MinInt32
  {
    Wrap32(-(i as int))
  }

  /**
   Compare as written: `int(i - other)`, where the subtraction wraps in int32
   before the widening. Its sign is wrong whenever the difference overflows.
   */
  function CompareAsWritten(i: Int32, other: Int32): (r: Int32)
    ensures MinInt32 <= i - other <= MaxInt32 ==> r == i - other
    ensures (i - other - r) % Two32 == 0
  {
    Wrap32(i as int - other)
  }

  /** Compare as documented: negative, zero or positive as i is below, equal to or above other. */
  function Compare(i: Int32, other: Int32): (r: int)
    ensures r < 0 <==> i < other
    ensures r == 0 <==> i == other
    ensures r > 0 <==> i > other
  {
    if i < other then -1 else if i > other then 1 else 0
  }

  /** String (strconv.Itoa): the shortest decimal text, with a minus sign for negatives. */
  function Render(i: Int32): (s: string)
    ensures |s| >= 1 && (i < 0 <==> s[0] == '-')
    ensures Parse(s) == Ok(i)
  {
    FormatParseRoundTrip(i, Cutoff);
    FormatInt(i)
  }

  /** R4: a fresh FHIR integer with the same value and no id or extensions. */
  function ToR4(i: Int32): (e: Fhir.Element)
    ensures e.Integer? && e.typeName == "integer" && e.extras == Fhir.NoExtras
  {
    Fhir.Integer("integer", i, Fhir.NoExtras)
  }

  /** FromR4: the value of any FHIR integer-valued element. */
  function FromR4(e: Fhir.Element): (r: Int32)
    requires e.Integer?
    ensures ToR4(r) == e <==> e.typeName == "integer" && e.extras == Fhir.NoExtras
  {
    e.intValue
  }

  /** Every Integer's text parses back to it. */
  lemma {:induction false} RenderParseRoundTrip(i: Int32)
    ensures Parse(Render(i)) == Ok(i)
  {
    FormatParseRoundTrip(i, Cutoff);
  }

  /** Every optionally signed base-10 numeral whose value fits in int32 is accepted with that value, leading zeros and all. */
  lemma {:induction false} ParseNumeral(sgn: string, d: string)
    requires IsSign(sgn) && |d| >= 1 && AllDigits(d)
    requires MinInt32 <= SignedValue(sgn, d) <= MaxInt32
    ensures Parse(sgn + d) == Ok(SignedValue(sgn, d))
  {
    ParseIntNumeral(sgn, d, Cutoff);
  }

  /** Every numeral whose value lies outside int32 is rejected, however it is written. */
  lemma {:induction false} ParseRejectsOutOfRange(sgn: string, d: string)
    requires IsSign(sgn) && |d| >= 1 && AllDigits(d)
    requires SignedValue(sgn, d) < MinInt32 || SignedValue(sgn, d) > MaxInt32
    ensures Parse(sgn + d) == Err(ParseError(TypeName, sgn + d))
  {
    ParseIntNumeral(sgn, d, Cutoff);
  }

  /** A leading plus sign and leading zeros are accepted; text that is not a base-10 integer is not. */
  lemma ParseAcceptsSignsAndZeros()
    ensures Parse("+007") == Ok(7)
    ensures Parse("-0") == Ok(0)
    ensures Parse("0x1234").Err? && Parse("").Err? && Parse("1.0").Err?
  {
    assert "+007"[1..] == "007";
    assert "007"[..2] == "00" && "00"[..1] == "0";
    assert DigitsValue("007") == 7;
    assert "-0"[1..] == "0";
    assert !IsDigit("1.0"[1]);
    ParseIntRejects(Cutoff);
  }

  /** Negating twice is the identity, including on the most negative value. */
  lemma NegateInvolution(i: Int32)
    ensures Negate(Negate(i)) == i
  {
  }

  /** Where the difference fits in int32, the as-written comparison has the documented sign. */
  lemma CompareAsWrittenAgrees(i: Int32, other: Int32)
    requires MinInt32 <= i - other <= MaxInt32
    ensures (CompareAsWritten(i, other) < 0 <==> i < other) && (CompareAsWritten(i, other) == 0 <==> i == other)
  {
  }

  /** The as-written comparison reports the most negative Integer as greater than 1, and the largest as less than -1. */
  lemma CompareAsWrittenOverflows()
    ensures MinInt32 < 1 && CompareAsWritten(MinInt32, 1) > 0
    ensures MaxInt32 > -1 && CompareAsWritten(MaxInt32, -1) < 0
  {
    assert Wrap32(MinInt32 - 1) == MaxInt32 by {
      Wrap32Unique(MinInt32 - 1, MaxInt32);
    }
    assert Wrap32(MaxInt32 + 1) == MinInt32 by {
      Wrap32Unique(MaxInt32 + 1, MinInt32);
    }
  }

  /** The corrected comparison is antisymmetric and transitive. */
  lemma CompareIsOrder(a: Int32, b: Int32, c: Int32)
    ensures Compare(a, b) == -Compare(b, a)
    ensures Compare(a, b) < 0 && Compare(b, c) < 0 ==> Compare(a, c) < 0
  {
  }

  /** Converting to R4 and back is the identity; back and forth keeps exactly the plain `integer` elements. */
  lemma R4RoundTrip(i: Int32, e: Fhir.Element)
    ensures FromR4(ToR4(i)) == i
    ensures e.Integer? ==> (ToR4(FromR4(e)) == e <==> e.typeName == "integer" && e.extras == Fhir.NoExtras)
  {
  }
}

=== FILE: integers64.dfy ===
/**
 System.Integer64, a Go `int64`: parsing with strconv, negation and comparison
 in wrapping int64 arithmetic, rendering, and the JSON and text marshalling,
 which both write and read the base-10 text.
 */
module Integers64 {
  import opened Results
  import opened Numerals
  import opened Errors

  const TypeName: string := "Integer64"

  /** The bit size passed to strconv.ParseInt, as the magnitude of the most negative value. */
  const Cutoff: int := 0x8000_0000_0000_0000

  /** ParseInteger64: strconv.ParseInt(s, 10, 64); a syntax or range error becomes a ParseError. */
  function Parse(s: string): (r: Result<Int64, ParseError>)
    ensures r.Ok? ==> |s| >= 1
    ensures r.Ok? ==> (r.value < 0 <==> s[0] == '-' && r.value != 0)
    ensures r.Ok? ==> exists sgn, d :: IsSign(sgn) && |d| >= 1 && AllDigits(d) && s == sgn + d && r.value == SignedValue(sgn, d)
    ensures r.Err? ==> r.error == ParseError(TypeName, s)
  {
    match ParseInt(s, Cutoff)
    case Some(v) => Ok(v)
    case None => Err(ParseError(TypeName, s))
  }

  /** Negate: `-i` in int64 arithmetic, where the most negative value is its own negation. */
  function Negate(i: Int64): (r: Int64)
    ensures i != MinInt64 ==> r == -i
    ensures i == MinInt64 ==> r == MinInt64
  {
    Wrap64(-(i as int))
  }

  /**
   Compare as written: `int(i - other)`, where the subtraction wraps in int64
   (Go's `int` being 64 bits wide). Its sign is wrong whenever the difference
   overflows.
   */
  function CompareAsWritten(i: Int64, other: Int64): (r: Int64)
    ensures MinInt64 <= i - other <= MaxInt64 ==> r == i - other
    ensures (i - other - r) % Two64 == 0
  {
    Wrap64(i as int - other)
  }

  /** Compare as documented: negative, zero or positive as i is below, equal to or above other. */
  function Compare(i: Int64, other: Int64): (r: int)
    ensures r < 0 <==> i < other
    ensures r == 0 <==> i == other
    ensures r > 0 <==> i > other
  {
    if i < other then -1 else if i > other then 1 else 0
  }

  /** String (strconv.FormatInt), which is also the bytes MarshalJSON and MarshalText produce. */
  function Render(i: Int64): (s: string)
    ensures |s| >= 1 && (i < 0 <==> s[0] == '-')
    ensures Parse(s) == Ok(i)
  {
    FormatParseRoundTrip(i, Cutoff);
    FormatInt(i)
  }

  /**
   UnmarshalJSON and UnmarshalText (the same code): the data is parsed as
   base-10 text; on success the receiver takes the value, on failure it keeps
   its old value and the ParseError is returned.
   */
  function Unmarshal(receiver: Int64, data: string): (r: Unmarshalled<Int64>)
    ensures r.error.Some? ==> r.receiver == receiver && r.error.value == ParseError(TypeName, data)
    ensures r.error.None? <==> Parse(data).Ok?
    ensures r.error.None? ==> r.receiver == Parse(data).value
  {
    match Parse(data)
    case Ok(v) => Unmarshalled(v, None)
    case Err(e) => Unmarshalled(receiver, Some(e))
  }

  /** Every Integer64's text parses back to it. */
  lemma {:induction false} RenderParseRoundTrip(i: Int64)
    ensures Parse(Render(i)) == Ok(i)
  {
    FormatParseRoundTrip(i, Cutoff);
  }

  /** Every optionally signed base-10 numeral whose value fits in int64 is accepted with that value, leading zeros and all. */
  lemma {:induction false} ParseNumeral(sgn: string, d: string)
    requires IsSign(sgn) && |d| >= 1 && AllDigits(d)
    requires MinInt64 <= SignedValue(sgn, d) <= MaxInt64
    ensures Parse(sgn + d) == Ok(SignedValue(sgn, d))
  {
    ParseIntNumeral(sgn, d, Cutoff);
  }

  /** Every numeral whose value lies outside int64 is rejected, however it is written. */
  lemma {:induction false} ParseRejectsOutOfRange(sgn: string, d: string)
    requires IsSign(sgn) && |d| >= 1 && AllDigits(d)
    requires SignedValue(sgn, d) < MinInt64 || SignedValue(sgn, d) > MaxInt64
    ensures Parse(sgn + d) == Err(ParseError(TypeName, sgn + d))
  {
    ParseIntNumeral(sgn, d, Cutoff);
  }

  /** Marshalling then unmarshalling into any receiver restores the value without error. */
  lemma {:induction false} MarshalUnmarshalRoundTrip(i: Int64, receiver: Int64)
    ensures Unmarshal(receiver, Render(i)) == Unmarshalled(i, None)
  {
    RenderParseRoundTrip(i);
  }

  /** Unmarshalling text that is not an int64 leaves the receiver as it was. */
  lemma UnmarshalFailureKeepsReceiver(receiver: Int64)
    ensures Unmarshal(receiver, "bad value").receiver == receiver
    ensures Unmarshal(receiver, "bad value").error == Some(ParseError(TypeName, "bad value"))
  {
    ParseIntRejects(Cutoff);
  }

  /** Negating twice is the identity, including on the most negative value. */
  lemma NegateInvolution(i: Int64)
    ensures Negate(Negate(i)) == i
  {
  }

  /** Where the difference fits in int64, the as-written comparison has the documented sign. */
  lemma CompareAsWrittenAgrees(i: Int64, other: Int64)
    requires MinInt64 <= i - other <= MaxInt64
    ensures (CompareAsWritten(i, other) < 0 <==> i < other) && (CompareAsWritten(i, other) == 0 <==> i == other)
  {
  }

  /** The as-written comparison reports the most negative Integer64 as greater than 1, and the largest as less than -1. */
  lemma CompareAsWrittenOverflows()
    ensures MinInt64 < 1 && CompareAsWritten(MinInt64, 1) > 0
    ensures MaxInt64 > -1 && CompareAsWritten(MaxInt64, -1) < 0
  {
  }

  /** The corrected comparison is antisymmetric and transitive. */
  lemma CompareIsOrder(a: Int64, b: Int64, c: Int64)
    ensures Compare(a, b) == -Compare(b, a)
    ensures Compare(a, b) < 0 && Compare(b, c) < 0 ==> Compare(a, c) < 0
  {
  }
}

=== FILE: namespaces.dfy ===
/**
 Type namespaces (namespace/namespace.go): a namespace groups the Go types
 that implement one of its interfaces under a common prefix, and names each
 such type within it. The FHIR namespace holds the R4 elements and resources,
 the System namespace the System values.
 */
module Namespaces {
  import opened Results

  /** The Go interfaces the two namespaces are defined by. */
  datatype Iface = SystemAny | R4Element | R4Resource | R4DomainResource | R4BackboneElement

  /**
   A Go type as reflection sees it: the declared name of the type it points
   to (empty for an unnamed type), how many pointer levels wrap it, and the
   interfaces the type itself implements.
   */
  datatype GoType = GoType(name: string, pointers: nat, implements: set<Iface>)

  /**
   The two naming functions of the package: the FHIR namer looks through
   one level of pointer before taking the type's name, the System namer
   takes the name of the type as given, which is empty for any pointer.
   */
  datatype Namer = FhirNamer | SystemNamer

  /** A namespace: its name, its namer and the interfaces whose implementations it contains (New). */
  datatype Namespace = Namespace(name: string, namer: Namer, interfaces: seq<Iface>)

  /** The FHIR namespace of R4 elements and resources. */
  const R4: Namespace := Namespace("FHIR", FhirNamer, [R4Element, R4Resource, R4DomainResource, R4BackboneElement])

  /** The System namespace of System values. */
  const System: Namespace := Namespace("System", SystemNamer, [SystemAny])

  /**
   The two namespaces the package defines: FHIR contains exactly the types
   implementing one of the R4 element, resource, domain resource or backbone
   element interfaces and names them through one pointer, System contains
   exactly the types implementing system.Any and names them as they are.
   */
  lemma PackageNamespaces(t: GoType)
    ensures String(R4) == "FHIR" && String(System) == "System"
    ensures Contains(R4, t) <==> R4Element in t.implements || R4Resource in t.implements || R4DomainResource in t.implements || R4BackboneElement in t.implements
    ensures Contains(System, t) <==> SystemAny in t.implements
    ensures Name(R4, t) == NameBy(FhirNamer, t) && Name(System, t) == NameBy(SystemNamer, t)
  {
    assert R4Element in R4.interfaces && R4Resource in R4.interfaces;
    assert R4DomainResource in R4.interfaces && R4BackboneElement in R4.interfaces;
    assert SystemAny in System.interfaces;
  }

  /** Namer.Name: the name of t; reflection names only a type that is not a pointer. */
  function NameBy(namer: Namer, t: GoType): (r: string)
    ensures r == t.name || r == ""
    ensures namer.SystemNamer? ==> (r == t.name <==> t.pointers == 0 || t.name == "")
    ensures namer.FhirNamer? ==> (r == t.name <==> t.pointers <= 1 || t.name == "")
  {
    match namer
    case FhirNamer => if t.pointers <= 1 then t.name else ""
    case SystemNamer => if t.pointers == 0 then t.name else ""
  }

  /** The namers agree on every type that is not a pointer, and differ on a pointer to a named type. */
  lemma NamersCompared(t: GoType)
    ensures t.pointers == 0 ==> NameBy(FhirNamer, t) == NameBy(SystemNamer, t)
    ensures t.pointers == 1 && t.name != "" ==> NameBy(FhirNamer, t) == t.name && NameBy(SystemNamer, t) == ""
    ensures t.pointers >= 2 ==> NameBy(FhirNamer, t) == NameBy(SystemNamer, t) == ""
  {
  }

  /** String: the namespace's name. */
  function String(n: Namespace): string {
    n.name
  }

  /** Name: the name of t within the namespace, without the namespace prefix. */
  function Name(n: Namespace, t: GoType): (r: string)
    ensures r == "" || r == t.name
  {
    NameBy(n.namer, t)
  }

  /** QualifiedName: the namespace's name, a dot, and the name of t within it. */
  function QualifiedName(n: Namespace, t: GoType): (r: string)
    ensures |r| == |String(n)| + 1 + |Name(n, t)|
    ensures r[..|String(n)|] == String(n) && r[|String(n)|] == '.' && r[|String(n)| + 1..] == Name(n, t)
  {
    n.name + "." + NameBy(n.namer, t)
  }

  /**
   When namespace names hold no dot, a qualified name tells the namespace's
   name and the type's name apart: the first dot ends the namespace's name.
   */
  lemma QualifiedNameInjective(n: Namespace, t: GoType, n': Namespace, t': GoType)
    requires '.' !in n.name && '.' !in n'.name
    requires QualifiedName(n, t) == QualifiedName(n', t')
    ensures String(n) == String(n') && Name(n, t) == Name(n', t')
  {
  }

  /** Whether t implements one of the interfaces, tried in order. */
  function ImplementsAny(t: GoType, ifaces: seq<Iface>): (r: bool)
    ensures r <==> exists k :: 0 <= k < |ifaces| && ifaces[k] in t.implements
  {
    if |ifaces| == 0 then false
    else if ifaces[0] in t.implements then true
    else
      var rest := ImplementsAny(t, ifaces[1..]);
      assert rest <==> exists k :: 1 <= k < |ifaces| && ifaces[k] in t.implements by {
        if rest {
          var k :| 0 <= k < |ifaces[1..]| && ifaces[1..][k] in t.implements;
          assert ifaces[k + 1] in t.implements;
        }
      }
      rest
  }

  /** Contains: whether t implements at least one of the namespace's interfaces. */
  function Contains(n: Namespace, t: GoType): (r: bool)
    ensures r <==> exists i :: i in n.interfaces && i in t.implements
  {
    var r := ImplementsAny(t, n.interfaces);
    assert r ==> exists i :: i in n.interfaces && i in t.implements by {
      if r {
        var k :| 0 <= k < |n.interfaces| && n.interfaces[k] in t.implements;
        assert n.interfaces[k] in n.interfaces;
      }
    }
    r
  }

  /** Whether none of the namespaces contains t. */
  predicate NoneContains(t: GoType, namespaces: seq<Namespace>) {
    forall k :: 0 <= k < |namespaces| ==> !Contains(namespaces[k], t)
  }

  /** Select: the first of the namespaces that contains t, or none. */
  function Select(t: GoType, namespaces: seq<Namespace>): (r: Option<Namespace>)
    ensures r.None? <==> NoneContains(t, namespaces)
    ensures r.Some? ==> exists k :: 0 <= k < |namespaces| && namespaces[k] == r.value && Contains(r.value, t) && NoneContains(t, namespaces[..k])
  {
    if |namespaces| == 0 then None
    else if Contains(namespaces[0], t) then
      assert NoneContains(t, namespaces[..0]);
      Some(namespaces[0])
    else
      var r := Select(t, namespaces[1..]);
      assert NoneContains(t, namespaces[1..]) ==> NoneContains(t, namespaces) by {
        if NoneContains(t, namespaces[1..]) {
          forall k | 1 <= k < |namespaces|
            ensures !Contains(namespaces[k], t)
          {
            assert namespaces[k] == namespaces[1..][k - 1];
          }
        }
      }
      assert r.Some? ==> exists k :: 0 <= k < |namespaces| && namespaces[k] == r.value && Contains(r.value, t) && NoneContains(t, namespaces[..k]) by {
        if r.Some? {
          var k :| 0 <= k < |namespaces[1..]| && namespaces[1..][k] == r.value && Contains(r.value, t) && NoneContains(t, namespaces[1..][..k]);
          assert namespaces[k + 1] == r.value;
          var before := namespaces[..k + 1];
          forall j | 0 <= j < |before|
            ensures !Contains(before[j], t)
          {
            if j > 0 {
              assert before[j] == namespaces[1..][..k][j - 1];
            }
          }
        }
      }
      r
  }

  /** Select follows its arguments' order: a type both namespaces contain goes to the one given first. */
  lemma SelectPrefersFirst(t: GoType, a: Namespace, b: Namespace)
    requires Contains(a, t) && Contains(b, t)
    ensures Select(t, [a, b]) == Some(a) && Select(t, [b, a]) == Some(b)
  {
  }

  /** A pointer to the Patient resource, which implements the resource interfaces. */
  const PatientPointer: GoType := GoType("Patient", 1, {R4Resource, R4DomainResource})

  /** A pointer to the Quantity element. */
  const QuantityPointer: GoType := GoType("Quantity", 1, {R4Element})

  /** The Element interface itself. */
  const ElementInterface: GoType := GoType("Element", 0, {R4Element})

  /** The System String type, a value type. */
  const SystemString: GoType := GoType("String", 0, {SystemAny})

  /** A pointer to a type outside both namespaces. */
  const TestingPointer: GoType := GoType("T", 1, {})

  /** The selections of the Go package's tests. */
  lemma SelectExamples()
    ensures Select(PatientPointer, [R4, System]) == Some(R4)
    ensures Select(QuantityPointer, [R4, System]) == Some(R4)
    ensures Select(ElementInterface, [R4, System]) == Some(R4)
    ensures Select(SystemString, [R4, System]) == Some(System)
    ensures Select(TestingPointer, [R4, System]) == None
  {
    assert R4Resource in R4.interfaces;
    assert R4Element in R4.interfaces;
    assert SystemAny in System.interfaces;
    assert [R4, System][1..] == [System];
  }

  /** The names and containments of the Go package's tests. */
  lemma NameExamples()
    ensures Name(R4, PatientPointer) == "Patient" && Name(R4, ElementInterface) == "Element"
    ensures Name(System, SystemString) == "String" && Name(System, PatientPointer) == ""
    ensures String(R4) == "FHIR" && String(System) == "System"
    ensures QualifiedName(R4, PatientPointer) == "FHIR.Patient" && QualifiedName(R4, QuantityPointer) == "FHIR.Quantity"
    ensures QualifiedName(R4, ElementInterface) == "FHIR.Element" && QualifiedName(System, SystemString) == "System.String"
    ensures !Contains(System, PatientPointer) && !Contains(R4, SystemString)
  {
  }
}

=== FILE: numerals.dfy ===
/**
 Go's fixed-width signed integers and the base-10 conversions of package
 strconv that the system types delegate to: `strconv.ParseInt(s, 10, bits)`
 and `strconv.FormatInt(v, 10)` / `strconv.Itoa`.

 Dafny integers are unbounded, so the two's-complement wrap-around of Go's
 `int32` and `int64` arithmetic is written out as `Wrap32` and `Wrap64`.
 */
module Numerals {
  import opened Results

  const Two32: int := 0x1_0000_0000
  const Two64: int := 0x1_0000_0000_0000_0000
  const MinInt32: int := -0x8000_0000
  const MaxInt32: int := 0x7fff_ffff
  const MinInt64: int := -0x8000_0000_0000_0000
  const MaxInt64: int := 0x7fff_ffff_ffff_ffff

  type Int32 = x: int | MinInt32 <= x <= MaxInt32
  type Int64 = x: int | MinInt64 <= x <= MaxInt64

  /** The int32 that Go's arithmetic leaves when the exact result is x. */
  function Wrap32(x: int): (r: Int32)
    ensures (x - r) % Two32 == 0
    ensures MinInt32 <= x <= MaxInt32 ==> r == x
  {
    var m := (x - MinInt32) % Two32;
    assert x - (m + MinInt32) == Two32 * ((x - MinInt32) / Two32);
    m + MinInt32
  }

  /** The int64 that Go's arithmetic leaves when the exact result is x. */
  function Wrap64(x: int): (r: Int64)
    ensures (x - r) % Two64 == 0
    ensures MinInt64 <= x <= MaxInt64 ==> r == x
  {
    var m := (x - MinInt64) % Two64;
    assert x - (m + MinInt64) == Two64 * ((x - MinInt64) / Two64);
    m + MinInt64
  }

  /** Wrapping is determined by the residue: the two ensures of Wrap32 pin r down. */
  lemma Wrap32Unique(x: int, r: int)
    requires MinInt32 <= r <= MaxInt32
    requires (x - r) % Two32 == 0
    ensures Wrap32(x) == r
  {
    var w := Wrap32(x);
    var q1 := (x - r) / Two32;
    var q2 := (x - w) / Two32;
    assert x - r == Two32 * q1;
    assert x - w == Two32 * q2;
    assert w - r == Two32 * (q1 - q2);
  }

  lemma Divisible64Then32(a: int)
    requires a % Two64 == 0
    ensures a % Two32 == 0
  {
    var k := a / Two64;
    assert a == Two32 * (Two32 * k);
  }

  lemma DivisibleSum32(a: int, b: int)
    requires a % Two32 == 0 && b % Two32 == 0
    ensures (a + b) % Two32 == 0
  {
    var i, j := a / Two32, b / Two32;
    assert a + b == Two32 * (i + j);
  }

  /** Narrowing an int64 to int32 after wrapping to 64 bits loses nothing more than narrowing directly. */
  lemma Wrap32OfWrap64(x: int)
    ensures Wrap32(Wrap64(x)) == Wrap32(x)
  {
    var w := Wrap64(x);
    var v := Wrap32(w);
    Divisible64Then32(x - w);
    DivisibleSum32(x - w, w - v);
    assert x - v == (x - w) + (w - v);
    Wrap32Unique(x, v);
  }

  // ---------------------------------------------------------------------------
  // Decimal digits

  predicate IsDigit(c: char) {
    '0' <= c <= '9'
  }

  predicate AllDigits(s: string) {
    forall i :: 0 <= i < |s| ==> IsDigit(s[i])
  }

  function DigitValue(c: char): nat
    requires IsDigit(c)
  {
    (c as int) - ('0' as int)
  }

  function DigitChar(d: nat): (c: char)
    requires d < 10
    ensures IsDigit(c) && DigitValue(c) == d
  {
    ((d + '0' as int) as char)
  }

  /** The number a string of decimal digits denotes, most significant first. */
  function DigitsValue(s: string): nat
    requires AllDigits(s)
  {
    if |s| == 0 then 0 else 10 * DigitsValue(s[..|s| - 1]) + DigitValue(s[|s| - 1])
  }

  /** The shortest decimal digit string of n (no leading zero, "0" for zero). */
  function NatDigits(n: nat): (s: string)
    ensures |s| >= 1 && AllDigits(s)
    ensures DigitsValue(s) == n
    ensures s[0] == '0' ==> n == 0
  {
    if n < 10 then [DigitChar(n)]
    else
      var prefix := NatDigits(n / 10);
      var s := prefix + [DigitChar(n % 10)];
      assert s[..|s| - 1] == prefix;
      s
  }

  /** strconv.FormatInt(x, 10): an optional minus sign, then the digits of |x|. */
  function FormatInt(x: int): (s: string)
    ensures |s| >= 1
    ensures x < 0 <==> s[0] == '-'
  {
    if x < 0 then "-" + NatDigits(-x) else NatDigits(x)
  }

  /** The optional sign in front of a numeral. */
  predicate IsSign(sgn: string) {
    sgn == "" || sgn == "+" || sgn == "-"
  }

  /** The value of a numeral with sign sgn and digits d: negated after a minus sign. */
  function SignedValue(sgn: string, d: string): int
    requires AllDigits(d)
  {
    if sgn == "-" then -(DigitsValue(d) as int) else DigitsValue(d)
  }

  /**
   strconv.ParseInt(s, 10, bits), where cutoff is 2^(bits-1): an optional
   '+' or '-', then one or more decimal digits (leading zeros allowed, no
   underscores in base 10), with a value in [-cutoff, cutoff - 1]. Anything
   else is a syntax or range error, both reported as None.
   */
  function ParseInt(s: string, cutoff: int): (r: Option<int>)
    requires cutoff >= 1
    ensures r.Some? ==> -cutoff <= r.value < cutoff
    ensures r.Some? ==> |s| >= 1 && (IsDigit(s[0]) || s[0] == '+' || s[0] == '-')
    ensures r.Some? ==> (r.value < 0 ==> s[0] == '-') && (s[0] == '-' ==> r.value <= 0)
    ensures r.Some? ==> exists sgn, d :: IsSign(sgn) && |d| >= 1 && AllDigits(d) && s == sgn + d && r.value == SignedValue(sgn, d)
  {
    if |s| == 0 then None
    else
      var neg := s[0] == '-';
      var k := if s[0] == '+' || s[0] == '-' then 1 else 0;
      var digits := s[k..];
      if |digits| == 0 || !AllDigits(digits) then None
      else
        var un: int := DigitsValue(digits);
        if !neg && un >= cutoff then None
        else if neg && un > cutoff then None
        else
          assert s == s[..k] + digits && IsSign(s[..k]);
          assert neg <==> s[..k] == "-";
          Some(if neg then -un else un)
  }

  /**
   Every optionally signed numeral of one or more digits, leading zeros
   allowed, is accepted exactly when its value is in [-cutoff, cutoff - 1],
   and then parses to that value.
   */
  lemma ParseIntNumeral(sgn: string, d: string, cutoff: int)
    requires cutoff >= 1
    requires IsSign(sgn) && |d| >= 1 && AllDigits(d)
    ensures ParseInt(sgn + d, cutoff) == if -cutoff <= SignedValue(sgn, d) < cutoff then Some(SignedValue(sgn, d)) else None
  {
    var s := sgn + d;
    if sgn == "" {
      assert s == d && IsDigit(d[0]);
    } else {
      assert s[0] == sgn[0] && s[1..] == d;
    }
  }

  /** Rendering then parsing gives the value back, for every value in range. */
  lemma FormatParseRoundTrip(x: int, cutoff: int)
    requires -cutoff <= x < cutoff
    ensures ParseInt(FormatInt(x), cutoff) == Some(x)
  {
    var s := FormatInt(x);
    if x < 0 {
      assert s[1..] == NatDigits(-x);
    } else {
      assert IsDigit(s[0]);
    }
  }

  /** The rendering of a value outside [-cutoff, cutoff - 1] is a range error. */
  lemma FormatParseOutOfRange(x: int, cutoff: int)
    requires cutoff >= 1
    requires x < -cutoff || x >= cutoff
    ensures ParseInt(FormatInt(x), cutoff) == None
  {
    var s := FormatInt(x);
    if x < 0 {
      assert s[1..] == NatDigits(-x);
    } else {
      assert IsDigit(s[0]);
    }
  }

  /** A sign with no digits, a hex prefix or a letter is rejected. */
  lemma ParseIntRejects(cutoff: int)
    requires cutoff >= 1
    ensures ParseInt("", cutoff) == None
    ensures ParseInt("-", cutoff) == None
    ensures ParseInt("0x1234", cutoff) == None
    ensures ParseInt("bad value", cutoff) == None
    ensures ParseInt("v12345v", cutoff) == None
  {
    assert !IsDigit("0x1234"[1]);
  }
}

=== FILE: results.dfy ===
/**
 The failure-compatible wrappers used throughout the model. A Go function that
 returns `(value, error)` is modelled as a `Result`: `Ok(v)` when the error is
 nil, `Err(e)` otherwise (the zero value Go returns beside an error is then
 irrelevant to every caller in the core).
 */
module Results {

  datatype Option<+T> = None | Some(value: T)

  datatype Result<+T, +E> = Ok(value: T) | Err(error: E) {

    predicate IsFailure() {
      Err?
    }

    function PropagateFailure<U>(): Result<U, E>
      requires Err?
    {
      Err(error)
    }

    function Extract(): T
      requires Ok?
    {
      value
    }
  }
}

=== FILE: strings.dfy ===
/**
 System.String: parsing from a FHIRPath literal, ordinal comparison,
 equivalence, and the FHIR R4 conversions.

 A Go string is a sequence of UTF-8 bytes; here it is the sequence of Unicode
 scalar values those bytes encode. UTF-8 orders byte sequences exactly as it
 orders the code points they encode, so the byte-wise `strings.Compare` is
 the code-point-wise comparison modelled here.
 */
module Strings {
  import opened Results
  import opened Errors
  import Escapes
  import Fhir

  const TypeName: string := "String"

  // ---------------------------------------------------------------------------
  // Parsing

  /**
   ParseString: the literal must start with a single quote, and what follows
   that quote must end with one; the text between them is decoded by the
   escape decoder. Any failure reports the whole literal.
   */
  function Parse(s: string): (r: Result<string, ParseError>)
    ensures r.Ok? <==> |s| >= 2 && s[0] == '\'' && s[|s| - 1] == '\'' && Escapes.Decode(s[1..|s| - 1]).Ok?
    ensures r.Ok? ==> Escapes.Decode(s[1..|s| - 1]) == Ok(r.value)
    ensures r.Err? ==> r.error == ParseError(TypeName, s)
  {
    if |s| == 0 || s[0] != '\'' then Err(ParseError(TypeName, s))
    else
      var body := s[1..];
      if |body| == 0 || body[|body| - 1] != '\'' then Err(ParseError(TypeName, s))
      else
        assert body[..|body| - 1] == s[1..|s| - 1];
        match Escapes.Decode(body[..|body| - 1])
        case Ok(v) => Ok(v)
        case Err(_) => Err(ParseError(TypeName, s))
  }

  /** A lone quote is cut as the prefix and leaves no closing quote; unquoted text is rejected. */
  lemma ParseRejects()
    ensures Parse("'").Err? && Parse("").Err? && Parse("abc").Err?
    ensures Parse("'abc").Err? && Parse("abc'").Err?
    ensures Parse("'a\\'").Err?
  {
    assert "'a\\'"[1..|"'a\\'"| - 1] == "a\\";
    Escapes.DanglingBackslashFails("a");
    assert "a" + "\\" == "a\\";
  }

  /** An empty literal, and an escaped quote: the literal `'it\'s'` denotes it's. */
  lemma ParseExamples()
    ensures Parse("''") == Ok("")
    ensures Parse("'it\\'s'") == Ok("it's")
  {
    assert Escapes.Decode("") == Ok("");
    assert "''"[1..|"''"| - 1] == "";
    assert "'it\\'s'"[1..|"'it\\'s'"| - 1] == "it\\'s";
    Escapes.DecodePlainStep('s', "");
    assert ['s'] + "" == "s";
    assert Escapes.Decode("s") == Ok("s");
    Escapes.DecodeFhirStep('\'', "s");
    assert "\\'s" == ['\\', '\''] + "s";
    assert Escapes.FhirEscapeChar('\'') == '\'' && ['\''] + "s" == "'s";
    assert Escapes.Decode("\\'s") == Ok("'s");
    Escapes.DecodePlainStep('t', "\\'s");
    assert "t\\'s" == ['t'] + "\\'s";
    assert ['t'] + "'s" == "t's";
    assert Escapes.Decode("t\\'s") == Ok("t's");
    Escapes.DecodePlainStep('i', "t\\'s");
    assert "it\\'s" == ['i'] + "t\\'s";
    assert ['i'] + "t's" == "it's";
    assert Escapes.Decode("it\\'s") == Ok("it's");
  }

  // ---------------------------------------------------------------------------
  // Writing a literal (the inverse of Parse)

  /** How a character is written inside a FHIRPath string literal. */
  function EscapeChar(c: char): string {
    if c == '\\' then "\\\\"
    else if c == '\'' then "\\'"
    else if c == '\n' then "\\n"
    else [c]
  }

  /** The body of a literal denoting s: backslashes, quotes and newlines escaped. */
  function Escape(s: string): (t: string)
    ensures |t| >= |s|
  {
    if |s| == 0 then [] else EscapeChar(s[0]) + Escape(s[1..])
  }

  /** The FHIRPath literal that denotes s. */
  function Literal(s: string): string {
    "'" + Escape(s) + "'"
  }

  lemma EscapeCharDecodes(c: char, rest: string)
    ensures Escapes.Decode(EscapeChar(c) + rest) == Escapes.Prepend(c, Escapes.Decode(rest))
  {
    if c == '\\' || c == '\'' || c == '\n' {
      var e := if c == '\\' then '\\' else if c == '\'' then '\'' else 'n';
      assert EscapeChar(c) == ['\\', e];
      Escapes.DecodeFhirStep(e, rest);
    } else {
      assert EscapeChar(c) == [c];
      Escapes.DecodePlainStep(c, rest);
    }
  }

  /** Decoding undoes escaping, for every string. */
  lemma {:induction false} EscapeDecodes(s: string)
    ensures Escapes.Decode(Escape(s)) == Ok(s)
  {
    if |s| == 0 {
      assert Escapes.Decode([]) == Ok([]);
    } else {
      EscapeDecodes(s[1..]);
      EscapeCharDecodes(s[0], Escape(s[1..]));
      assert [s[0]] + s[1..] == s;
    }
  }

  /** Every string is denoted by its literal: parsing the literal gives it back. */
  lemma LiteralRoundTrip(s: string)
    ensures Parse(Literal(s)) == Ok(s)
  {
    var l := Literal(s);
    assert l[1..|l| - 1] == Escape(s);
    EscapeDecodes(s);
  }

  // ---------------------------------------------------------------------------
  // Ordinal comparison

  /** Compare (strings.Compare): -1, 0 or 1 as a sorts before, equal to or after b, character by character. */
  function Compare(a: string, b: string): (r: int)
    ensures r == -1 || r == 0 || r == 1
    ensures r == 0 <==> a == b
    decreases |a|
  {
    if |a| == 0 then (if |b| == 0 then 0 else -1)
    else if |b| == 0 then 1
    else if a[0] < b[0] then -1
    else if a[0] > b[0] then 1
    else
      var r := Compare(a[1..], b[1..]);
      assert a[1..] == b[1..] ==> a == b by {
        if a[1..] == b[1..] {
          assert a == [a[0]] + a[1..] && b == [b[0]] + b[1..];
        }
      }
      r
  }

  /** a is a proper prefix of b. */
  predicate ProperPrefix(a: string, b: string) {
    |a| < |b| && a == b[..|a|]
  }

  /** a and b first differ at index k, where a has the smaller character. */
  predicate SmallerAt(a: string, b: string, k: nat) {
    k < |a| && k < |b| && a[..k] == b[..k] && a[k] < b[k]
  }

  /** The lexicographic order: a proper prefix, or a smaller character at the first difference. */
  ghost predicate LexLess(a: string, b: string) {
    ProperPrefix(a, b) || exists k: nat :: SmallerAt(a, b, k)
  }

  lemma TailsSmallerAt(a: string, b: string, k: nat)
    requires |a| > 0 && |b| > 0 && a[0] == b[0]
    ensures SmallerAt(a[1..], b[1..], k) <==> SmallerAt(a, b, k + 1)
  {
    if k + 1 < |a| && k + 1 < |b| {
      assert a[..k + 1] == [a[0]] + a[1..][..k];
      assert b[..k + 1] == [b[0]] + b[1..][..k];
    }
  }

  lemma TailsProperPrefix(a: string, b: string)
    requires |a| > 0 && |b| > 0 && a[0] == b[0]
    ensures ProperPrefix(a[1..], b[1..]) <==> ProperPrefix(a, b)
  {
    if |a| < |b| {
      assert a == [a[0]] + a[1..];
      assert b[..|a|] == [b[0]] + b[1..][..|a| - 1];
    }
  }

  /** Compare orders strings lexicographically. */
  lemma {:induction false} CompareIsLexicographic(a: string, b: string)
    ensures Compare(a, b) < 0 <==> LexLess(a, b)
    decreases |a|
  {
    if |a| == 0 {
      if |b| > 0 {
        assert ProperPrefix(a, b);
      } else {
        assert forall k: nat :: !SmallerAt(a, b, k);
      }
    } else if |b| == 0 {
      assert forall k: nat :: !SmallerAt(a, b, k);
    } else if a[0] < b[0] {
      assert SmallerAt(a, b, 0);
    } else if a[0] > b[0] {
      assert !ProperPrefix(a, b);
      assert forall k: nat :: !SmallerAt(a, b, k);
    } else {
      CompareIsLexicographic(a[1..], b[1..]);
      TailsProperPrefix(a, b);
      if LexLess(a, b) && !ProperPrefix(a, b) {
        var k: nat :| SmallerAt(a, b, k);
        assert k > 0;
        TailsSmallerAt(a, b, k - 1);
      }
      if LexLess(a[1..], b[1..]) && !ProperPrefix(a[1..], b[1..]) {
        var k: nat :| SmallerAt(a[1..], b[1..], k);
        TailsSmallerAt(a, b, k);
      }
    }
  }

  /** Swapping the operands negates the comparison. */
  lemma {:induction false} CompareAntisymmetric(a: string, b: string)
    ensures Compare(a, b) == -Compare(b, a)
    decreases |a|
  {
    if |a| > 0 && |b| > 0 && a[0] == b[0] {
      CompareAntisymmetric(a[1..], b[1..]);
    }
  }

  /** The comparisons of the Go package's tests, and a prefix sorting first. */
  lemma CompareExamples()
    ensures Compare("123", "987") == -1 && Compare("987", "123") == 1
    ensures Compare("hello", "hello") == 0
    ensures Compare("ab", "abc") == -1
  {
    assert "ab"[1..] == "b" && "abc"[1..] == "bc";
    assert "b"[1..] == "" && "bc"[1..] == "c";
  }

  // ---------------------------------------------------------------------------
  // Equivalence

  /** strings.ToLower on one character, for the ASCII letters. */
  function LowerChar(c: char): char {
    if 'A' <= c <= 'Z' then (c as int + 32) as char else c
  }

  /** The whitespace replacer on one character: tab, line feed and carriage return become a space. */
  function SpaceChar(c: char): char {
    if c == '\t' || c == '\n' || c == '\r' then ' ' else c
  }

  /** What normalization does to one character. */
  function NormChar(c: char): char {
    SpaceChar(LowerChar(c))
  }

  /** strings.ToLower, character by character. */
  function ToLower(s: string): (r: string)
    ensures |r| == |s|
    ensures forall i :: 0 <= i < |s| ==> r[i] == LowerChar(s[i])
  {
    if |s| == 0 then [] else [LowerChar(s[0])] + ToLower(s[1..])
  }

  /** The whitespace replacer: each tab, line feed and carriage return becomes one space; nothing is collapsed. */
  function ReplaceWhitespace(s: string): (r: string)
    ensures |r| == |s|
    ensures forall i :: 0 <= i < |s| ==> r[i] == SpaceChar(s[i])
  {
    if |s| == 0 then [] else [SpaceChar(s[0])] + ReplaceWhitespace(s[1..])
  }

  /** normalize: lower-case, then the whitespace replacer. */
  function Normalize(s: string): (r: string)
    ensures |r| == |s|
    ensures forall i :: 0 <= i < |s| ==> r[i] == NormChar(s[i])
  {
    ReplaceWhitespace(ToLower(s))
  }

  /**
   Equivalent: the normalized forms are equal. That is, the strings have the
   same length and agree character by character up to ASCII case and the
   three whitespace characters.
   */
  function Equivalent(a: string, b: string): (r: bool)
    ensures r <==> |a| == |b| && forall i :: 0 <= i < |a| ==> NormChar(a[i]) == NormChar(b[i])
  {
    var na, nb := Normalize(a), Normalize(b);
    assert |a| == |b| && (forall i :: 0 <= i < |a| ==> NormChar(a[i]) == NormChar(b[i])) ==> na == nb by {
      if |a| == |b| && (forall i :: 0 <= i < |a| ==> NormChar(a[i]) == NormChar(b[i])) {
        assert forall i :: 0 <= i < |na| ==> na[i] == nb[i];
      }
    }
    na == nb
  }

  /** Normalizing is idempotent: a normalized string is its own normal form. */
  lemma NormalizeIdempotent(s: string)
    ensures Normalize(Normalize(s)) == Normalize(s)
  {
    var n := Normalize(s);
    assert forall i :: 0 <= i < |n| ==> NormChar(n[i]) == n[i];
  }

  /** Equivalence is an equivalence relation that contains equality. */
  lemma EquivalentIsEquivalence(a: string, b: string, c: string)
    ensures Equivalent(a, a)
    ensures Equivalent(a, b) ==> Equivalent(b, a)
    ensures Equivalent(a, b) && Equivalent(b, c) ==> Equivalent(a, c)
  {
  }

  /** Case and the three whitespace characters are ignored, other differences are not, and runs of spaces are not collapsed. */
  lemma EquivalentExamples()
    ensures Equivalent("HELLO", "hello") && Compare("HELLO", "hello") == -1
    ensures Equivalent("\t\r\nHeLLo ", "   hello ")
    ensures !Equivalent("a  b", "a b")
    ensures !Equivalent("a b", "a_b")
  {
    assert NormChar("a b"[1]) != NormChar("a_b"[1]);
  }

  // ---------------------------------------------------------------------------
  // FHIR R4 conversions

  /** R4: a FHIR string with the same value and no id or extensions. */
  function ToR4(s: string): (e: Fhir.Element)
    ensures e.String? && e.typeName == "string" && e.extras == Fhir.NoExtras
  {
    Fhir.String("string", s, Fhir.NoExtras)
  }

  /** FromR4: the value of any FHIR string-like element (string, code, uri, ...). */
  function FromR4(e: Fhir.Element): (r: string)
    requires e.String?
    ensures ToR4(r) == e <==> e.typeName == "string" && e.extras == Fhir.NoExtras
  {
    e.stringValue
  }

  /** Converting to R4 and back is the identity; back and forth keeps exactly the plain `string` elements. */
  lemma R4RoundTrip(s: string, e: Fhir.Element)
    ensures FromR4(ToR4(s)) == s
    ensures e.String? ==> (ToR4(FromR4(e)) == e <==> e.typeName == "string" && e.extras == Fhir.NoExtras)
  {
  }
}

=== FILE: systemtypes.dfy ===
/**
 The closed set of FHIRPath System values the core implements (`system.Any`),
 and the check of System type names (system/any.go).
 */
module SystemTypes {
  import opened Numerals
  import Decimals

  /** A value of one of the five System types that implement `system.Any`. */
  datatype Any =
    | Boolean(boolValue: bool)
    | Integer(intValue: Int32)
    | Integer64(int64Value: Int64)
    | Decimal(decimalValue: Decimals.Decimal)
    | String(stringValue: string)

  /** The name of the System type a value belongs to. */
  function TypeName(a: Any): string {
    match a
    case Boolean(_) => "Boolean"
    case Integer(_) => "Integer"
    case Integer64(_) => "Integer64"
    case Decimal(_) => "Decimal"
    case String(_) => "String"
  }

  /** The names of the FHIRPath System types. */
  const TypeNames: set<string> := {"Any", "Boolean", "Date", "DateTime", "Decimal", "Integer", "Quantity", "String", "Time"}

  /**
   IsType: whether ty names a FHIRPath System type, case-sensitively and
   without the `System.` qualifier. The temporal types and Quantity are
   accepted although the core has no values of them; Integer64 is not.
   */
  function IsType(ty: string): (r: bool)
    ensures r <==> ty in TypeNames
  {
    match ty
    case "Boolean" => true
    case "Integer" => true
    case "Any" => true
    case "Date" => true
    case "DateTime" => true
    case "Decimal" => true
    case "Quantity" => true
    case "String" => true
    case "Time" => true
    case _ => false
  }

  /** Every value's type is a System type, except Integer64's. */
  lemma IsTypeOfValues(a: Any)
    ensures IsType(TypeName(a)) <==> !a.Integer64?
  {
  }

  /** The check is exact: the nine names pass, and other spellings of them do not. */
  lemma IsTypeExamples()
    ensures IsType("Boolean") && IsType("Integer") && IsType("Any") && IsType("Date") && IsType("DateTime")
    ensures IsType("Decimal") && IsType("Quantity") && IsType("String") && IsType("Time")
    ensures !IsType("boolean") && !IsType("STRING") && !IsType("Integer64") && !IsType("System.String")
    ensures !IsType("") && !IsType("Long")
  {
  }
}

=== FILE: values.dfy ===
/**
 The Go values (`any`) that reach the collection and conversion code: FHIR
 resources and elements (pointers, so they carry an identity), System values,
 type specifiers, and everything else.
 */
module Values {
  import Fhir
  import opened SystemTypes

  /**
   A Go value held in an `any`:
   - `Resource` is a FHIR resource (`fhir.Resource`), known by its resource
     type and the identity of the pointer;
   - `Element` is a FHIR element (`fhir.Element`) and the identity of the
     pointer that holds it;
   - `System` is a value of a System type (`system.Any`);
   - `TypeSpecifier` is a `reflect.TypeSpecifier`, a named string type that
     implements none of the interfaces above;
   - `Foreign` is a value of any other Go type, known by that type's name.
   */
  datatype Value =
    | Resource(resourceType: string, ref: nat)
    | Element(element: Fhir.Element, ref: nat)
    | System(value: Any)
    | TypeSpecifier(name: string)
    | Foreign(goType: string)
}
